=== FILE: README.md ===
# Space shooter game state, modelled in Dafny

This project models the game-state logic of a small browser arcade shooter
(`script.js`). The ship fires bullets upward at meteors falling from the top
of an 800 x 600 play area. Destroyed meteors add to the score, and coins buy
faster bullets or a temporary shield.

The module-level variables of the script become one immutable `GameState`
record (module `State`). Every phase is a pure function over it:

- `Entities`: the meteor kind table (speed, size, score value) and the meteor, bullet and ship records.
- `Motion`: the two motion updaters. Each moves every entity, then filters out those that left the play area.
- `Collision`: the bounding-box test and one collision pass, done as a snapshot scan followed by a commit.
- `Splice`: the collision loop exactly as written. It calls `splice` inside nested `forEach`, and is kept only to exhibit the difference (see Findings).
- `Shield`: the shield countdown, a two-field state machine.
- `Economy`: the speed and shield upgrades. Each is all-or-nothing.
- `Controls`: arrow-key movement with clamping, and firing.
- `Game`: spawning, the tick (spawn, move, collide), and sessions of ticks, key presses and button clicks.
- `Seqs` and `Wrappers`: filtering by a mask of flags, and `Option`.

Positions and bullet speed are exact `real`s. Score, coins and costs are
unbounded integers. The `Math.random()` results a tick uses are passed in as
a `Draws` record of four numbers in [0, 1).

On the play-area boundaries the model follows script.js:

- A meteor is removed once its y reaches the bottom edge (`y < 600` keeps it).
- A bullet is removed once its y reaches the top edge (`y > 0` keeps it).
- A spawned meteor's x lies in [0, 800 - size), not [0, 800 - size].

## Model

| member | source | states |
|---|---|---|
| Entities.Speed | script.js:33-37 | every meteor kind falls a positive distance per tick |
| Entities.Size | script.js:33-37 | every meteor kind is a positive square narrower than the canvas |
| Entities.Cost | script.js:33-37 | destroying any meteor kind awards a positive score |
| Seqs.SelectIsOrderedPick | script.js:63 | filtering keeps exactly the elements that pass the test, at increasing positions of the input, so their order is kept |
| Seqs.SelectMembers | script.js:63 | filtering keeps every element that passes the test and nothing else |
| Seqs.SelectIsSubsequence | script.js:63 | filtering leaves the input at increasing positions: nothing is added, duplicated or reordered |
| Seqs.SelectSubMultiset | script.js:63 | filtering never holds more copies of a value than the input did |
| Motion.UpdateMeteors | script.js:59-64 | after the update every meteor is above the bottom edge, each survivor is some old meteor moved down by its kind's speed, and the pool never grows |
| Motion.UpdateMeteorsExact | script.js:59-64 | the survivors are the moved meteors taken at increasing old positions, so their order is kept; a meteor survives exactly when its old y plus its speed is below 600 |
| Motion.UpdateBullets | script.js:66-71 | after the update every bullet is below the top edge, each survivor is some old bullet moved up by the bullet speed, and the pool never grows |
| Motion.UpdateBulletsExact | script.js:66-71 | survivors keep their order, x, width and height; their y is the old y minus bullet speed; a bullet survives exactly when that y is above 0 |
| Collision.OverlapIsSharedInterior | script.js:77-80 | the strict four-way test holds exactly when the bullet's and the meteor's boxes share an interior point |
| Collision.EdgeContactIsNoHit | script.js:77-80 | boxes that only touch along an edge do not collide |
| Collision.FirstFree | script.js:74-80 | a bullet claims the first unclaimed meteor, in pool order, that it overlaps; if it claims none, it overlaps no unclaimed meteor |
| Collision.ScanKeepsClaims | script.js:81-82 | a meteor destroyed earlier in the pass stays destroyed |
| Collision.ScanHitsOverlap | script.js:77-83 | each bullet's match is a meteor it really overlaps, that was still free, and that ends up destroyed |
| Collision.ScanInjective | script.js:81-83 | no meteor is matched by two bullets, so no meteor is scored twice |
| Collision.ScanOnlyClaimed | script.js:81-82 | a meteor is destroyed only when some bullet matched it |
| Collision.ScanSound | script.js:73-86 | every match is a real overlap with a meteor that was still free; no meteor is matched by two bullets; a meteor is removed only when some bullet matched it |
| Collision.ScanMaximal | script.js:73-86 | a bullet left unmatched overlaps only meteors that other bullets claimed |
| Collision.ScanCounts | script.js:81-82 | exactly one meteor is newly destroyed per bullet that hit |
| Collision.ScanGain | script.js:83 | the score awarded is the total value of the newly destroyed meteors, each counted once |
| Collision.Resolve | script.js:73-86 | one pass never grows either pool |
| Collision.ResolveOnlyRemoves | script.js:73-86 | each pool after a pass is the old pool with some entities left out, at increasing old positions and so in the old order, and no entity gains a copy |
| Collision.ResolveScore | script.js:83 | the surviving meteors are a sub-multiset of the old pool; a pass never lowers the score and raises it by exactly the value of the meteors it removed |
| Collision.ResolveRemovesPairs | script.js:81-82 | bullets and meteors leave in equal numbers |
| Collision.KeptPairsApart | script.js:73-86 | by position: no bullet left unmatched overlaps a meteor left undestroyed |
| Collision.ResolveLeavesNoOverlap | script.js:73-86 | after the intended pass no surviving bullet overlaps a surviving meteor; the loop as written can leave such a pair (see Findings) |
| Collision.LoneBulletUnspent | script.js:76-83 | by position: a bullet that overlaps no meteor is never marked as spent |
| Collision.ClaimedMeteorWasHit | script.js:77-82 | a meteor the pass destroys overlaps some bullet |
| Collision.LoneMeteorUnclaimed | script.js:76-83 | by position: a meteor that no bullet overlaps is never marked as destroyed |
| Collision.ResolveRemovesOnlyHits | script.js:76-83 | a bullet that overlaps no meteor, and a meteor that no bullet overlaps, both survive the pass |
| Collision.ResolvePairsUp | script.js:76-83 | over the pools a pass returns: a bullet is removed exactly when it destroyed a meteor it overlaps, that meteor is removed too, no meteor is destroyed by two bullets, and every removed meteor was destroyed by some bullet |
| Collision.ResolveGuarantees | script.js:73-86 | for the intended pass: both pools afterwards are the old pools with entities left out, in order and without copies; every removal is a bullet and a meteor it overlaps, taken out together one to one; the score never drops and rises by exactly the value of the meteors removed; no surviving bullet overlaps a surviving meteor; a bullet or meteor that overlaps nothing survives. The loop as written keeps neither of the last two (see Findings) |
| Collision.ResolvePairs | script.js:73-86 | each removed bullet destroyed one overlapping meteor, distinct bullets destroyed distinct meteors, and every removed meteor was destroyed by some bullet |
| Collision.SameCornerHit | script.js:77-83 | a 4 x 10 bullet and a small meteor both at (100, 50) destroy each other and award 10 |
| Splice.SpliceOneShifts | script.js:81-82 | `splice(i, 1)` keeps the elements before `i` in place, moves the ones after it down one index and removes exactly one copy of the element at `i`; past the end it changes nothing |
| Splice.StackedMeteorsAsWritten | script.js:74-86 | as written, one bullet over three stacked small meteors removes the first and third meteor and scores 20 |
| Splice.StackedMeteorsIntended | script.js:74-86 | in the snapshot pass the same bullet removes only the first meteor and scores 10 |
| Splice.ShiftedBulletSkippedAsWritten | script.js:74-86 | as written, once bullet 0 hits, bullet 1 slides into an index the outer loop has passed, so an overlapping pair at (500, 50) survives |
| Splice.ShiftedBulletTestedIntended | script.js:74-86 | in the snapshot pass both overlapping pairs of that input are destroyed, for 20 points |
| Splice.UnrelatedBulletRemovedAsWritten | script.js:74-86 | as written, the consumed bullet 0 destroys a second meteor and removes bullet 1 at (700, 300), which overlaps nothing |
| Splice.UnrelatedBulletKeptIntended | script.js:74-86 | in the snapshot pass that input loses one bullet and one meteor for 10 points, and bullet 1 survives |
| Shield.Countdown | script.js:88-94 | an inactive shield is untouched; an active one loses one tick and stays active exactly while ticks remain; the timer stays consistent |
| Shield.CountdownFrom | script.js:88-94 | a shield raised with d ticks has d - k left after k ticks, and is active exactly while k < d |
| Shield.ShieldLastsExactly | script.js:88-94 | a shield raised with d ticks is active after every earlier tick and switches off with no ticks left on tick d, not before or after |
| Shield.InactiveStaysPut | script.js:88-94 | an inactive shield never changes, however many ticks pass |
| State.StartGame | script.js:103-111 | a new game has zero score and coins, empty pools, bullet speed 5 and no shield, keeps the upgrade costs, and keeps the state invariant |
| State.LoadedIsValid | script.js:16-25 | the state at page load satisfies the game invariant |
| Economy.UpgradeSpeed | script.js:159-165 | the speed purchase happens exactly when coins cover the cost: coins drop by the cost, bullet speed rises by 0.5, the cost rises by 150; otherwise nothing changes; no other field ever changes |
| Economy.UpgradeShield | script.js:167-175 | the shield purchase happens exactly when coins cover the cost: coins drop by the cost, the shield is raised for 600 ticks, the cost rises by 300; otherwise nothing changes |
| Economy.UpgradesPreserveValid | script.js:159-175 | neither purchase creates debt, lowers a cost or breaks the invariant; each changes the state exactly when it is affordable |
| Economy.UpgradeExamples | script.js:159-175 | with 50 coins the 100-coin speed upgrade is refused; with 150 it leaves 50 coins and a 250 cost; with 500 coins the 500-coin shield leaves 0 coins, 600 ticks and an 800 cost |
| Economy.CurveTotalClosedForm | script.js:159-175 | n purchases starting at cost c, each raising it by s, cost n*c + s*n*(n-1)/2 in total |
| Economy.RepeatedSpeedUpgrades | script.js:159-165 | with coins for n speed purchases in a row, all go through: coins drop by the curve total, the cost rises by 150n, bullet speed by 0.5n |
| Economy.RepeatedShieldUpgrades | script.js:167-175 | with coins for n shield purchases in a row, all go through: coins drop by the curve total, the cost rises by 300n, the shield ends with a fresh 600 ticks |
| Controls.MovePlayer | script.js:139-157 | a key press keeps the ship inside the play area; away from the edges an arrow moves the ship 5 units and the move persists; space appends one bullet fired from the ship; other keys do nothing |
| Controls.ClampHoldsAtEdges | script.js:142-147 | left never takes x below 0 and right never takes the ship past the right edge; away from the edges each moves exactly 5, at an edge the move into it does nothing |
| Controls.LeftRightUndo | script.js:142-147 | away from both edges, a left move and a right move undo each other |
| Controls.ShotIsCentred | script.js:148-154 | a bullet from the 50-wide ship is 4 x 10 at x = ship.x + 23 and y = ship.y, centred on the ship and inside the play area |
| Controls.LeftThenFire | script.js:139-157 | left then fire from the centred ship: as written the bullet leaves from x = 398; with a persistent ship it leaves from x = 393 |
| Controls.ArrowsHaveNoEffectAsWritten | script.js:139-147 | as written, no sequence of arrow presses changes the game state |
| Game.Spawn | script.js:114-121 | below the 0.02 draw exactly one meteor of the chosen kind is appended at y = 0 and fully inside the canvas horizontally; otherwise nothing changes; only the meteor pool is affected |
| Game.Move | script.js:123-124 | after the motion phase meteors are above the bottom edge and bullets below the top edge, and nothing else changes |
| Game.CheckCollisions | script.js:73-95 | the collision phase (the intended pass) leaves each pool as the old pool with entities left out, in order and without copies; every removal is a bullet and a meteor it overlaps, taken out together one to one; it raises the score by exactly the value of the meteors it removes, removes nothing that overlaps nothing, leaves no overlapping survivors, and counts the shield down once |
| Game.TickPreservesValid | script.js:113-127 | a whole tick keeps the invariant (meteors inside 0 <= y < 600, bullets at y > 0), never lowers the score, and leaves coins, costs, bullet speed and ship alone |
| Game.ApplyPreservesValid | script.js:139-180 | every tick, key press and button click keeps the invariant; only a restart can lower the score, and only purchases or a restart change the coins |
| Game.PlayPreservesValid | script.js:103-180 | over any session without a restart the score never drops and the coins never rise; without purchases the coins never change |

## Findings

| source | as written | input that shows it | evidently intended | confidence | as-written member | corrected member |
|---|---|---|---|---|---|---|
| script.js:74-86 | `splice` on both arrays inside nested `forEach`: a consumed bullet keeps testing the remaining meteors, and the next meteor shifts into an index already passed | one bullet at (100, 50) and three small meteors at (100, 50): the bullet destroys two meteors for 20 points | each bullet and each meteor is removed at most once per pass, so one meteor is destroyed for 10 points | not executed; high | Splice.StackedMeteorsAsWritten | Collision.ResolveGuarantees |
| script.js:74-86 | `bullets.splice(bIndex, 1)` inside the outer `forEach` shifts the next bullet into an index already visited, so that bullet is not tested in this pass | bullets at (100, 50) and (500, 50) over small meteors at the same corners: the second pair overlaps and survives | no overlapping bullet and meteor survive a pass | not executed; high | Splice.ShiftedBulletSkippedAsWritten | Collision.ResolveGuarantees |
| script.js:74-86 | after its first hit a bullet keeps testing, and each further hit splices index `bIndex` of the bullet array again, which by then holds a different bullet | bullets at (100, 50) and (700, 300), meteors small at (100, 50), (400, 50), (100, 50): both bullets and two meteors vanish for 20 points, though the bullet at (700, 300) overlaps nothing | a bullet that overlaps no meteor survives the pass | not executed; high | Splice.UnrelatedBulletRemovedAsWritten | Collision.ResolveGuarantees |
| script.js:139-147 | `movePlayer` builds a fresh centred ship on every key press, so the arrow keys move a discarded copy | press left, then space: the bullet still leaves from x = 398 | the ship keeps its position across presses, so the bullet leaves from x = 393 | not executed; medium | Controls.ArrowsHaveNoEffectAsWritten | Controls.MovePlayer |

The rest of the model uses the corrected behaviour. Collisions use the
snapshot-then-commit pass of `Collision.Resolve`. The ship is a persistent
`player` field that `Controls.MovePlayer` updates. `Controls.LeftThenFire`
puts the two versions side by side.

## Left out

- Drawing: the canvas, images, HUD text and the shield icon's `hidden` class (script.js:2-9, 27-57, 130-137, 92, 172). These are presentation only.
- Timers and dialogs: `setInterval`, `clearInterval`, `alert` and the disabled state of the start button (script.js:97-101, 111-113, 127). A tick is the function `Game.Tick`, and a session is a sequence of `Game.Event`s.
- `endGame` is never called in script.js, so it has no counterpart.
- Event wiring (script.js:177-180): each listener becomes one `Game.Event` case.
- `Math.random()` becomes the `Game.Draws` parameter. How often meteors spawn, and the 50/25/25 kind split, are statements about probability and are not modelled.
- Floating point: positions and bullet speed are exact reals, so rounding of repeated `+= 0.5` or `-= bulletSpeed` is not modelled.
- Coins: nothing in script.js ever adds coins. The model has no way to earn them either, so upgrades can only be bought from a state that already has coins.
- The shield flag is never consulted by the collision code or by anything else, so the shield has no effect to model beyond its timer.
- Collision.Resolve: does not copy the splice-while-iterating removal. It models the intended snapshot-then-commit pass instead; the literal loop is `Splice.CheckCollisionsAsWritten` (see Findings). The loop as written can score one bullet twice, can leave an overlapping pair alive because a shifted bullet is never tested, and can remove a bullet that overlaps nothing; the guarantees stated for `Collision.Resolve`, `Collision.ResolveGuarantees` and `Game.CheckCollisions` hold for the intended pass only.
- Controls.MovePlayer: keeps the ship's position between presses, instead of rebuilding the ship per press as script.js:140 does (see Findings).

=== FILE: collision.dfy ===
/**
 Collision resolution between the bullet pool and the meteor pool.

 One pass scans a snapshot of both pools bullet by bullet (bullet-major,
 meteor-minor). Each bullet claims the first meteor, in pool order, that it
 overlaps and that no earlier bullet of the same pass has claimed. Only after
 the scan are the claimed bullets and meteors removed, and each claimed
 meteor's score value is awarded. So every bullet and every meteor is removed
 at most once per pass.
 */
module Collision {
  import opened Wrappers
  import opened Entities
  import opened Seqs

  /**
   Axis-aligned bounding-box test between a bullet and a meteor (whose box is
   `Size(kind)` on each side). All four comparisons are strict.
   */
  predicate Overlaps(b: Bullet, m: Meteor)
  {
    var side := Size(m.kind);
    && b.x < m.x + side
    && b.x + b.width > m.x
    && b.y < m.y + side
    && b.y + b.height > m.y
  }

  /** The point (px, py) lies strictly inside the rectangle. */
  predicate Interior(left: real, top: real, width: real, height: real, px: real, py: real)
  {
    left < px < left + width && top < py < top + height
  }

  /**
   The strict test means "the two boxes share an interior point": boxes that
   merely touch along an edge or at a corner do not collide.
   */
  lemma OverlapIsSharedInterior(b: Bullet, m: Meteor)
    requires b.width > 0.0 && b.height > 0.0
    ensures Overlaps(b, m) <==>
              exists px, py ::
                && Interior(b.x, b.y, b.width, b.height, px, py)
                && Interior(m.x, m.y, Size(m.kind), Size(m.kind), px, py)
  {
    var side := Size(m.kind);
    if Overlaps(b, m) {
      var left := if b.x < m.x then m.x else b.x;
      var right := if b.x + b.width < m.x + side then b.x + b.width else m.x + side;
      var top := if b.y < m.y then m.y else b.y;
      var bottom := if b.y + b.height < m.y + side then b.y + b.height else m.y + side;
      var px, py := (left + right) / 2.0, (top + bottom) / 2.0;
      assert Interior(b.x, b.y, b.width, b.height, px, py);
      assert Interior(m.x, m.y, side, side, px, py);
    }
  }

  /** Touching along any edge is not a collision. */
  lemma EdgeContactIsNoHit(b: Bullet, m: Meteor)
    requires || b.x + b.width == m.x || m.x + Size(m.kind) == b.x
             || b.y + b.height == m.y || m.y + Size(m.kind) == b.y
    ensures !Overlaps(b, m)
  {
  }

  /** Sum of the score values of the meteors in `ms`. */
  function TotalCost(ms: seq<Meteor>): (total: int)
    ensures total >= 0
  {
    if |ms| == 0 then 0 else Cost(ms[0].kind) + TotalCost(ms[1..])
  }

  /** Sum of the score values of the meteors whose flag is set. */
  function MaskCost(ms: seq<Meteor>, mask: seq<bool>): (total: int)
    requires |mask| == |ms|
    ensures 0 <= total <= TotalCost(ms)
  {
    if |ms| == 0 then 0
    else (if mask[0] then Cost(ms[0].kind) else 0) + MaskCost(ms[1..], mask[1..])
  }

  /** The flagged meteors are worth what they add up to once kept. */
  lemma {:induction false} SelectCost(ms: seq<Meteor>, mask: seq<bool>)
    requires |mask| == |ms|
    ensures TotalCost(Select(ms, mask)) == MaskCost(ms, mask)
  {
    if |ms| > 0 {
      SelectCost(ms[1..], mask[1..]);
      var rest := Select(ms[1..], mask[1..]);
      if mask[0] {
        assert Select(ms, mask) == [ms[0]] + rest;
        assert ([ms[0]] + rest)[1..] == rest;
      } else {
        assert Select(ms, mask) == rest;
      }
    }
  }

  /** The flagged and the unflagged meteors together are worth the whole pool. */
  lemma {:induction false} MaskCostSplit(ms: seq<Meteor>, mask: seq<bool>)
    requires |mask| == |ms|
    ensures MaskCost(ms, mask) + MaskCost(ms, Negate(mask)) == TotalCost(ms)
  {
    if |ms| > 0 {
      MaskCostSplit(ms[1..], mask[1..]);
      assert Negate(mask)[1..] == Negate(mask[1..]);
    }
  }

  /** Flagging one more meteor adds exactly its score value. */
  lemma {:induction false} MaskCostMark(ms: seq<Meteor>, mask: seq<bool>, i: nat)
    requires |mask| == |ms| && i < |ms| && !mask[i]
    ensures MaskCost(ms, mask[i := true]) == MaskCost(ms, mask) + Cost(ms[i].kind)
  {
    if i > 0 {
      MaskCostMark(ms[1..], mask[1..], i - 1);
      assert mask[i := true][1..] == mask[1..][i - 1 := true];
    } else {
      assert mask[i := true][1..] == mask[1..];
    }
  }

  /** With no meteor flagged, nothing is awarded. */
  lemma {:induction false} MaskCostNone(ms: seq<Meteor>)
    ensures MaskCost(ms, NoneSet(|ms|)) == 0
  {
    if |ms| > 0 {
      MaskCostNone(ms[1..]);
      assert NoneSet(|ms|)[1..] == NoneSet(|ms| - 1);
    }
  }

  /**
   The first meteor at index `from` or later that `b` overlaps and that is
   not yet `taken`, if there is one.
   */
  function FirstFree(b: Bullet, ms: seq<Meteor>, taken: seq<bool>, from: nat): (r: Option<nat>)
    requires |taken| == |ms| && from <= |ms|
    decreases |ms| - from
    ensures r.Some? ==> from <= r.value < |ms| && !taken[r.value] && Overlaps(b, ms[r.value])
    ensures r.Some? ==> forall i :: from <= i < r.value && !taken[i] ==> !Overlaps(b, ms[i])
    ensures r.None? ==> forall i :: from <= i < |ms| && !taken[i] ==> !Overlaps(b, ms[i])
  {
    if from == |ms| then None
    else if !taken[from] && Overlaps(b, ms[from]) then Some(from)
    else FirstFree(b, ms, taken, from + 1)
  }

  /**
   The matches of one scan: `hits[j]` is the meteor bullet `j` destroys, if
   any; `taken[i]` says meteor `i` is destroyed; `gain` is the score awarded.
   */
  datatype Matching = Matching(hits: seq<Option<nat>>, taken: seq<bool>, gain: int)

  /** Flags for the bullets that found a meteor. */
  function Spent(hits: seq<Option<nat>>): seq<bool>
  {
    seq(|hits|, j requires 0 <= j < |hits| => hits[j].Some?)
  }

  /**
   Scans the bullets in order against a snapshot of the meteors, where the
   meteors flagged in `taken` were already claimed earlier in the pass.
   */
  function Scan(bs: seq<Bullet>, ms: seq<Meteor>, taken: seq<bool>): (p: Matching)
    requires |taken| == |ms|
    decreases |bs|
    ensures |p.hits| == |bs| && |p.taken| == |ms|
  {
    if |bs| == 0 then Matching([], taken, 0)
    else
      match FirstFree(bs[0], ms, taken, 0)
      case None =>
        var rest := Scan(bs[1..], ms, taken);
        Matching([None] + rest.hits, rest.taken, rest.gain)
      case Some(i) =>
        var rest := Scan(bs[1..], ms, taken[i := true]);
        Matching([Some(i)] + rest.hits, rest.taken, rest.gain + Cost(ms[i].kind))
  }

  /** Meteors claimed before the scan stay claimed. */
  lemma {:induction false} ScanKeepsClaims(bs: seq<Bullet>, ms: seq<Meteor>, taken: seq<bool>)
    requires |taken| == |ms|
    decreases |bs|
    ensures forall i :: 0 <= i < |ms| && taken[i] ==> Scan(bs, ms, taken).taken[i]
  {
    if |bs| > 0 {
      match FirstFree(bs[0], ms, taken, 0)
      case None => ScanKeepsClaims(bs[1..], ms, taken);
      case Some(h) => ScanKeepsClaims(bs[1..], ms, taken[h := true]);
    }
  }

  /**
   Every match is a genuine overlap with a meteor that was free when the scan
   started and is flagged as destroyed at its end.
   */
  lemma {:induction false} ScanHitsOverlap(bs: seq<Bullet>, ms: seq<Meteor>, taken: seq<bool>)
    requires |taken| == |ms|
    decreases |bs|
    ensures var p := Scan(bs, ms, taken);
      forall j :: 0 <= j < |bs| && p.hits[j].Some? ==>
        && p.hits[j].value < |ms|
        && !taken[p.hits[j].value]
        && p.taken[p.hits[j].value]
        && Overlaps(bs[j], ms[p.hits[j].value])
  {
    if |bs| > 0 {
      var p := Scan(bs, ms, taken);
      var t := match FirstFree(bs[0], ms, taken, 0)
        case None => taken
        case Some(h) => taken[h := true];
      ScanHitsOverlap(bs[1..], ms, t);
      ScanKeepsClaims(bs[1..], ms, t);
      var rest := Scan(bs[1..], ms, t);
      forall j | 0 < j < |bs| && p.hits[j].Some?
        ensures p.hits[j].value < |ms| && !taken[p.hits[j].value]
        ensures p.taken[p.hits[j].value] && Overlaps(bs[j], ms[p.hits[j].value])
      {
        assert p.hits[j] == rest.hits[j - 1] && bs[j] == bs[1..][j - 1];
      }
    }
  }

  /** No meteor is claimed by two bullets. */
  lemma {:induction false} ScanInjective(bs: seq<Bullet>, ms: seq<Meteor>, taken: seq<bool>)
    requires |taken| == |ms|
    decreases |bs|
    ensures var p := Scan(bs, ms, taken);
      forall j, k :: 0 <= j < k < |bs| && p.hits[j].Some? && p.hits[k].Some? ==>
        p.hits[j].value != p.hits[k].value
  {
    if |bs| > 0 {
      var p := Scan(bs, ms, taken);
      var t := match FirstFree(bs[0], ms, taken, 0)
        case None => taken
        case Some(h) => taken[h := true];
      ScanInjective(bs[1..], ms, t);
      ScanHitsOverlap(bs[1..], ms, t);
      var rest := Scan(bs[1..], ms, t);
      assert forall j :: 0 < j < |bs| ==> p.hits[j] == rest.hits[j - 1];
    }
  }

  /** A meteor is newly flagged only if some bullet claimed it. */
  lemma {:induction false} ScanOnlyClaimed(bs: seq<Bullet>, ms: seq<Meteor>, taken: seq<bool>)
    requires |taken| == |ms|
    decreases |bs|
    ensures var p := Scan(bs, ms, taken);
      forall i :: 0 <= i < |ms| && p.taken[i] && !taken[i] ==>
        exists j :: 0 <= j < |bs| && p.hits[j] == Some(i)
  {
    if |bs| > 0 {
      var p := Scan(bs, ms, taken);
      var h := FirstFree(bs[0], ms, taken, 0);
      var t := if h.Some? then taken[h.value := true] else taken;
      ScanOnlyClaimed(bs[1..], ms, t);
      var rest := Scan(bs[1..], ms, t);
      assert p.hits == [h] + rest.hits;
      forall i | 0 <= i < |ms| && p.taken[i] && !taken[i]
        ensures exists j :: 0 <= j < |bs| && p.hits[j] == Some(i)
      {
        if h == Some(i) {
          assert p.hits[0] == Some(i);
        } else {
          var j' :| 0 <= j' < |bs| - 1 && rest.hits[j'] == Some(i);
          assert p.hits[j' + 1] == Some(i);
        }
      }
    }
  }

  /**
   Every match is a genuine overlap with a meteor that was free when the pass
   reached it; no meteor is claimed by two bullets; earlier claims persist;
   and a meteor is newly flagged only if some bullet claimed it.
   */
  lemma {:induction false} ScanSound(bs: seq<Bullet>, ms: seq<Meteor>, taken: seq<bool>)
    requires |taken| == |ms|
    ensures var p := Scan(bs, ms, taken);
      && (forall j :: 0 <= j < |bs| && p.hits[j].Some? ==>
            && p.hits[j].value < |ms|
            && !taken[p.hits[j].value]
            && p.taken[p.hits[j].value]
            && Overlaps(bs[j], ms[p.hits[j].value]))
      && (forall j, k :: 0 <= j < k < |bs| && p.hits[j].Some? && p.hits[k].Some? ==>
            p.hits[j].value != p.hits[k].value)
      && (forall i :: 0 <= i < |ms| && taken[i] ==> p.taken[i])
      && (forall i :: 0 <= i < |ms| && p.taken[i] && !taken[i] ==>
            exists j :: 0 <= j < |bs| && p.hits[j] == Some(i))
  {
    ScanKeepsClaims(bs, ms, taken);
    ScanHitsOverlap(bs, ms, taken);
    ScanInjective(bs, ms, taken);
    ScanOnlyClaimed(bs, ms, taken);
  }

  /**
   Greedy maximality: a bullet that found nothing overlaps only meteors that
   were claimed, so no overlapping bullet and meteor both survive the pass.
   */
  lemma {:induction false} ScanMaximal(bs: seq<Bullet>, ms: seq<Meteor>, taken: seq<bool>)
    requires |taken| == |ms|
    decreases |bs|
    ensures var p := Scan(bs, ms, taken);
      forall j, i :: 0 <= j < |bs| && 0 <= i < |ms| && p.hits[j].None? && Overlaps(bs[j], ms[i]) ==>
        p.taken[i]
  {
    if |bs| > 0 {
      var p := Scan(bs, ms, taken);
      match FirstFree(bs[0], ms, taken, 0)
      case None =>
        ScanMaximal(bs[1..], ms, taken);
        ScanKeepsClaims(bs[1..], ms, taken);
        var rest := Scan(bs[1..], ms, taken);
        assert p.hits == [None] + rest.hits;
        assert forall j :: 0 < j < |bs| ==> p.hits[j] == rest.hits[j - 1] && bs[j] == bs[1..][j - 1];
      case Some(h) =>
        var t := taken[h := true];
        ScanMaximal(bs[1..], ms, t);
        ScanKeepsClaims(bs[1..], ms, t);
        var rest := Scan(bs[1..], ms, t);
        assert p.hits == [Some(h)] + rest.hits;
        assert forall j :: 0 < j < |bs| ==> p.hits[j] == rest.hits[j - 1] && bs[j] == bs[1..][j - 1];
    }
  }

  /** Exactly one meteor is newly flagged per bullet that hit. */
  lemma {:induction false} ScanCounts(bs: seq<Bullet>, ms: seq<Meteor>, taken: seq<bool>)
    requires |taken| == |ms|
    decreases |bs|
    ensures Count(Scan(bs, ms, taken).taken) == Count(taken) + Count(Spent(Scan(bs, ms, taken).hits))
  {
    if |bs| > 0 {
      var p := Scan(bs, ms, taken);
      match FirstFree(bs[0], ms, taken, 0)
      case None =>
        ScanCounts(bs[1..], ms, taken);
        var rest := Scan(bs[1..], ms, taken);
        assert Spent(p.hits) == [false] + Spent(rest.hits);
      case Some(h) =>
        var t := taken[h := true];
        ScanCounts(bs[1..], ms, t);
        var rest := Scan(bs[1..], ms, t);
        assert Spent(p.hits) == [true] + Spent(rest.hits);
        CountMark(taken, h);
    }
  }

  /** The score awarded is the total value of the newly flagged meteors, each counted once. */
  lemma {:induction false} ScanGain(bs: seq<Bullet>, ms: seq<Meteor>, taken: seq<bool>)
    requires |taken| == |ms|
    decreases |bs|
    ensures Scan(bs, ms, taken).gain == MaskCost(ms, Scan(bs, ms, taken).taken) - MaskCost(ms, taken)
  {
    if |bs| > 0 {
      var h := FirstFree(bs[0], ms, taken, 0);
      var t := if h.Some? then taken[h.value := true] else taken;
      ScanGain(bs[1..], ms, t);
      if h.Some? {
        MaskCostMark(ms, taken, h.value);
      }
    }
  }

  /** What survives one collision pass, and the score it awards. */
  datatype Outcome = Outcome(bullets: seq<Bullet>, meteors: seq<Meteor>, gain: int)

  /**
   One collision pass: scan a snapshot of both pools, then remove every
   claimed bullet and meteor and award the claimed meteors' values.
   */
  function Resolve(bs: seq<Bullet>, ms: seq<Meteor>): (o: Outcome)
    ensures |o.bullets| <= |bs| && |o.meteors| <= |ms|
  {
    var p := Scan(bs, ms, NoneSet(|ms|));
    Outcome(Select(bs, Negate(Spent(p.hits))), Select(ms, Negate(p.taken)), p.gain)
  }

  /**
   A pass only removes: each pool afterwards is the old pool with some
   entities left out, in their old order, and no entity gains a copy.
   */
  lemma {:induction false} ResolveOnlyRemoves(bs: seq<Bullet>, ms: seq<Meteor>)
    ensures IsSubsequence(Resolve(bs, ms).bullets, bs)
    ensures IsSubsequence(Resolve(bs, ms).meteors, ms)
    ensures multiset(Resolve(bs, ms).bullets) <= multiset(bs)
    ensures multiset(Resolve(bs, ms).meteors) <= multiset(ms)
  {
    var p := Scan(bs, ms, NoneSet(|ms|));
    SelectIsSubsequence(bs, Negate(Spent(p.hits)));
    SelectIsSubsequence(ms, Negate(p.taken));
    SelectSubMultiset(bs, Negate(Spent(p.hits)));
    SelectSubMultiset(ms, Negate(p.taken));
  }

  /**
   `rb` and `rm` are what is left of `bs` and `ms` after removing overlapping
   pairs one to one: `kb` and `km` are the kept positions, and `hit[j]` names
   the meteor bullet `j` destroyed, if any. A bullet is removed exactly when it
   destroyed a meteor; that meteor overlaps it and is removed; no meteor is
   destroyed by two bullets; and every removed meteor was destroyed by a bullet.
   */
  ghost predicate Pairing(bs: seq<Bullet>, ms: seq<Meteor>, rb: seq<Bullet>, rm: seq<Meteor>,
                          kb: seq<nat>, km: seq<nat>, hit: seq<Option<nat>>)
  {
    && IsPick(kb, rb, bs)
    && IsPick(km, rm, ms)
    && |hit| == |bs|
    && (forall j :: 0 <= j < |bs| ==> (j in kb <==> hit[j].None?))
    && (forall j :: 0 <= j < |bs| && hit[j].Some? ==>
          hit[j].value < |ms| && hit[j].value !in km && Overlaps(bs[j], ms[hit[j].value]))
    && (forall j, k :: 0 <= j < k < |bs| && hit[j].Some? && hit[k].Some? ==> hit[j].value != hit[k].value)
    && (forall i :: 0 <= i < |ms| && i !in km ==> exists j :: 0 <= j < |bs| && hit[j] == Some(i))
  }

  /** The pools `rb` and `rm` arise from `bs` and `ms` by removing overlapping pairs one to one. */
  ghost predicate PairedRemoval(bs: seq<Bullet>, ms: seq<Meteor>, rb: seq<Bullet>, rm: seq<Meteor>)
  {
    exists kb: seq<nat>, km: seq<nat>, hit: seq<Option<nat>> :: Pairing(bs, ms, rb, rm, kb, km, hit)
  }

  /**
   Every removal in a pass is an overlapping bullet and meteor taken out
   together: each removed bullet destroyed one meteor it overlaps, no meteor
   is destroyed twice, and no meteor is removed without a bullet.
   */
  lemma {:induction false} ResolvePairsUp(bs: seq<Bullet>, ms: seq<Meteor>)
    ensures PairedRemoval(bs, ms, Resolve(bs, ms).bullets, Resolve(bs, ms).meteors)
  {
    var p := Scan(bs, ms, NoneSet(|ms|));
    var keptBullets := Negate(Spent(p.hits));
    var keptMeteors := Negate(p.taken);
    SelectIsOrderedPick(bs, keptBullets);
    SelectIsOrderedPick(ms, keptMeteors);
    ResolvePairs(bs, ms);
    var kb := Positions(keptBullets);
    var km := Positions(keptMeteors);
    assert IsPick(kb, Resolve(bs, ms).bullets, bs);
    assert IsPick(km, Resolve(bs, ms).meteors, ms);
    assert forall j :: 0 <= j < |bs| ==> (j in kb <==> p.hits[j].None?) by {
      forall j | 0 <= j < |bs| ensures keptBullets[j] == p.hits[j].None? { }
    }
    assert Pairing(bs, ms, Resolve(bs, ms).bullets, Resolve(bs, ms).meteors, kb, km, p.hits);
  }

  /**
   The guarantees of a collision pass: the score never drops and rises by
   exactly the value of the meteors removed; bullets and meteors are removed
   as overlapping pairs, one to one; no surviving bullet overlaps a surviving
   meteor; and a bullet or meteor that collides with nothing survives.
   */
  lemma {:induction false} ResolveGuarantees(bs: seq<Bullet>, ms: seq<Meteor>)
    ensures IsSubsequence(Resolve(bs, ms).bullets, bs) && IsSubsequence(Resolve(bs, ms).meteors, ms)
    ensures multiset(Resolve(bs, ms).bullets) <= multiset(bs)
    ensures multiset(Resolve(bs, ms).meteors) <= multiset(ms)
    ensures PairedRemoval(bs, ms, Resolve(bs, ms).bullets, Resolve(bs, ms).meteors)
    ensures Resolve(bs, ms).gain >= 0
    ensures Resolve(bs, ms).gain == TotalCost(ms) - TotalCost(Resolve(bs, ms).meteors)
    ensures |bs| - |Resolve(bs, ms).bullets| == |ms| - |Resolve(bs, ms).meteors|
    ensures forall b, m :: b in Resolve(bs, ms).bullets && m in Resolve(bs, ms).meteors ==> !Overlaps(b, m)
    ensures forall j :: 0 <= j < |bs| && (forall i :: 0 <= i < |ms| ==> !Overlaps(bs[j], ms[i])) ==>
      bs[j] in Resolve(bs, ms).bullets
    ensures forall i :: 0 <= i < |ms| && (forall j :: 0 <= j < |bs| ==> !Overlaps(bs[j], ms[i])) ==>
      ms[i] in Resolve(bs, ms).meteors
  {
    ResolveOnlyRemoves(bs, ms);
    ResolvePairsUp(bs, ms);
    ResolveScore(bs, ms);
    ResolveRemovesPairs(bs, ms);
    ResolveLeavesNoOverlap(bs, ms);
    ResolveRemovesOnlyHits(bs, ms);
  }

  /**
   The score rises by exactly the value of the meteors the pass removed: the
   survivors are a sub-multiset of the old pool, and the gain is the value of
   the difference.
   */
  lemma {:induction false} ResolveScore(bs: seq<Bullet>, ms: seq<Meteor>)
    ensures multiset(Resolve(bs, ms).meteors) <= multiset(ms)
    ensures Resolve(bs, ms).gain >= 0
    ensures Resolve(bs, ms).gain == TotalCost(ms) - TotalCost(Resolve(bs, ms).meteors)
  {
    var none := NoneSet(|ms|);
    var p := Scan(bs, ms, none);
    ScanGain(bs, ms, none);
    MaskCostNone(ms);
    MaskCostSplit(ms, p.taken);
    SelectCost(ms, Negate(p.taken));
    SelectSubMultiset(ms, Negate(p.taken));
  }

  /** The pass removes as many bullets as meteors. */
  lemma {:induction false} ResolveRemovesPairs(bs: seq<Bullet>, ms: seq<Meteor>)
    ensures |bs| - |Resolve(bs, ms).bullets| == |ms| - |Resolve(bs, ms).meteors|
  {
    var none := NoneSet(|ms|);
    var p := Scan(bs, ms, none);
    ScanCounts(bs, ms, none);
    CountNegate(Spent(p.hits));
    CountNegate(p.taken);
  }

  /** No bullet that survives the pass overlaps a meteor that survives it. */
  lemma {:induction false} ResolveLeavesNoOverlap(bs: seq<Bullet>, ms: seq<Meteor>)
    ensures forall b, m :: b in Resolve(bs, ms).bullets && m in Resolve(bs, ms).meteors ==> !Overlaps(b, m)
  {
    var p := Scan(bs, ms, NoneSet(|ms|));
    var keptBullets := Negate(Spent(p.hits));
    var keptMeteors := Negate(p.taken);
    KeptPairsApart(bs, ms);
    SelectMembers(bs, keptBullets);
    SelectMembers(ms, keptMeteors);
    forall b, m | b in Select(bs, keptBullets) && m in Select(ms, keptMeteors)
      ensures !Overlaps(b, m)
    {
      var j :| 0 <= j < |bs| && keptBullets[j] && bs[j] == b;
      var i :| 0 <= i < |ms| && keptMeteors[i] && ms[i] == m;
    }
  }

  /** `ResolveLeavesNoOverlap` by index: no kept bullet overlaps a kept meteor. */
  lemma {:induction false} KeptPairsApart(bs: seq<Bullet>, ms: seq<Meteor>)
    ensures var p := Scan(bs, ms, NoneSet(|ms|));
      forall j, i :: 0 <= j < |bs| && 0 <= i < |ms| && Negate(Spent(p.hits))[j] && Negate(p.taken)[i] ==>
        !Overlaps(bs[j], ms[i])
  {
    ScanMaximal(bs, ms, NoneSet(|ms|));
  }

  /** By index: a bullet that overlaps no meteor is never spent. */
  lemma {:induction false} LoneBulletUnspent(bs: seq<Bullet>, ms: seq<Meteor>)
    ensures var p := Scan(bs, ms, NoneSet(|ms|));
      forall j :: 0 <= j < |bs| && (forall i :: 0 <= i < |ms| ==> !Overlaps(bs[j], ms[i])) ==>
        Negate(Spent(p.hits))[j]
  {
    ScanHitsOverlap(bs, ms, NoneSet(|ms|));
  }

  /** A meteor the pass claims overlaps some bullet. */
  lemma {:induction false} ClaimedMeteorWasHit(bs: seq<Bullet>, ms: seq<Meteor>, i: nat)
    requires i < |ms| && Scan(bs, ms, NoneSet(|ms|)).taken[i]
    ensures exists j :: 0 <= j < |bs| && Overlaps(bs[j], ms[i])
  {
    var j := ClaimerOf(bs, ms, i);
    HitOverlaps(bs, ms, j);
  }

  /** The bullet that claimed meteor `i`. */
  lemma {:induction false} ClaimerOf(bs: seq<Bullet>, ms: seq<Meteor>, i: nat) returns (j: nat)
    requires i < |ms| && Scan(bs, ms, NoneSet(|ms|)).taken[i]
    ensures j < |bs| && Scan(bs, ms, NoneSet(|ms|)).hits[j] == Some(i)
  {
    var none := NoneSet(|ms|);
    ScanOnlyClaimed(bs, ms, none);
    assert !none[i];
    j :| 0 <= j < |bs| && Scan(bs, ms, none).hits[j] == Some(i);
  }

  /** The meteor bullet `j` claimed is one it overlaps. */
  lemma {:induction false} HitOverlaps(bs: seq<Bullet>, ms: seq<Meteor>, j: nat)
    requires j < |bs| && Scan(bs, ms, NoneSet(|ms|)).hits[j].Some?
    ensures var i := Scan(bs, ms, NoneSet(|ms|)).hits[j].value;
      i < |ms| && Overlaps(bs[j], ms[i])
  {
    ScanHitsOverlap(bs, ms, NoneSet(|ms|));
  }

  /** By index: a meteor that no bullet overlaps is never claimed. */
  lemma {:induction false} LoneMeteorUnclaimed(bs: seq<Bullet>, ms: seq<Meteor>)
    ensures var p := Scan(bs, ms, NoneSet(|ms|));
      forall i :: 0 <= i < |ms| && (forall j :: 0 <= j < |bs| ==> !Overlaps(bs[j], ms[i])) ==>
        Negate(p.taken)[i]
  {
    var p := Scan(bs, ms, NoneSet(|ms|));
    forall i | 0 <= i < |ms| && (forall j :: 0 <= j < |bs| ==> !Overlaps(bs[j], ms[i]))
      ensures !p.taken[i]
    {
      if p.taken[i] {
        ClaimedMeteorWasHit(bs, ms, i);
      }
    }
  }

  /**
   A pass removes only what collided: a bullet that overlaps no meteor, and
   a meteor that no bullet overlaps, are both still there afterwards.
   */
  lemma {:induction false} ResolveRemovesOnlyHits(bs: seq<Bullet>, ms: seq<Meteor>)
    ensures forall j :: 0 <= j < |bs| && (forall i :: 0 <= i < |ms| ==> !Overlaps(bs[j], ms[i])) ==>
      bs[j] in Resolve(bs, ms).bullets
    ensures forall i :: 0 <= i < |ms| && (forall j :: 0 <= j < |bs| ==> !Overlaps(bs[j], ms[i])) ==>
      ms[i] in Resolve(bs, ms).meteors
  {
    var p := Scan(bs, ms, NoneSet(|ms|));
    LoneBulletUnspent(bs, ms);
    LoneMeteorUnclaimed(bs, ms);
    SelectMembers(bs, Negate(Spent(p.hits)));
    SelectMembers(ms, Negate(p.taken));
  }

  /**
   Every removal is a genuine pair: each bullet removed destroyed one
   overlapping meteor, distinct bullets destroyed distinct meteors, and every
   meteor removed was destroyed by some bullet.
   */
  lemma {:induction false} ResolvePairs(bs: seq<Bullet>, ms: seq<Meteor>)
    ensures var p := Scan(bs, ms, NoneSet(|ms|));
      && (forall j :: 0 <= j < |bs| && p.hits[j].Some? ==>
            p.hits[j].value < |ms| && p.taken[p.hits[j].value] && Overlaps(bs[j], ms[p.hits[j].value]))
      && (forall j, k :: 0 <= j < k < |bs| && p.hits[j].Some? && p.hits[k].Some? ==>
            p.hits[j].value != p.hits[k].value)
      && (forall i :: 0 <= i < |ms| && p.taken[i] ==> exists j :: 0 <= j < |bs| && p.hits[j] == Some(i))
  {
    var none := NoneSet(|ms|);
    ScanSound(bs, ms, none);
    var p := Scan(bs, ms, none);
    assert forall i :: 0 <= i < |ms| && p.taken[i] ==> p.taken[i] && !none[i];
  }

  /** A bullet and a small meteor at the same corner (100, 50) destroy each other for 10 points. */
  lemma SameCornerHit()
    ensures Resolve([Bullet(100.0, 50.0, 4.0, 10.0)], [Meteor(100.0, 50.0, Small)])
         == Outcome([], [], 10)
  {
    var bs := [Bullet(100.0, 50.0, 4.0, 10.0)];
    var ms := [Meteor(100.0, 50.0, Small)];
    assert Overlaps(bs[0], ms[0]);
    assert FirstFree(bs[0], ms, NoneSet(1), 0) == Some(0);
    var p := Scan(bs, ms, NoneSet(1));
    assert p == Matching([Some(0)], [true], 10);
    assert Select(bs, Negate(Spent(p.hits))) == [];
    assert Select(ms, Negate(p.taken)) == [];
  }
}

=== FILE: controls.dfy ===
/**
 Keyboard control of the ship: the arrow keys move it 5 units sideways,
 clamped to the play area, and the space bar fires a 4 x 10 bullet from the
 ship's horizontal centre. The ship is a persistent field of the game state.
 */
module Controls {
  import opened Entities
  import opened State

  datatype Key = ArrowLeft | ArrowRight | Space | OtherKey

  /** Horizontal distance the ship moves per key press. */
  const Step: real := 5.0

  /** `Math.max(0, x - 5)`. */
  function MoveLeft(p: Player): Player
  {
    p.(x := if p.x - Step > 0.0 then p.x - Step else 0.0)
  }

  /** `Math.min(canvasWidth - width, x + 5)`. */
  function MoveRight(p: Player): Player
  {
    p.(x := if CanvasWidth - p.width < p.x + Step then CanvasWidth - p.width else p.x + Step)
  }

  /** The bullet fired from ship `p`. */
  function Shot(p: Player): Bullet
  {
    Bullet(p.x + p.width / 2.0 - 2.0, p.y, 4.0, 10.0)
  }

  /** Handles one key press. */
  function MovePlayer(g: GameState, key: Key): (r: GameState)
    ensures key == Space ==> r.bullets == g.bullets + [Shot(g.player)] && r.player == g.player
    ensures key != Space ==> r.bullets == g.bullets
    ensures key == OtherKey ==> r == g
    ensures key == ArrowLeft && g.player.x >= Step ==> r.player.x == g.player.x - Step
    ensures key == ArrowRight && g.player.x + Step + g.player.width <= CanvasWidth ==>
      r.player.x == g.player.x + Step
    ensures r.(player := g.player, bullets := g.bullets) == g
    ensures r.player.y == g.player.y && r.player.width == g.player.width && r.player.height == g.player.height
    ensures ShipInBounds(g.player) ==> ShipInBounds(r.player)
  {
    match key
    case ArrowLeft => g.(player := MoveLeft(g.player))
    case ArrowRight => g.(player := MoveRight(g.player))
    case Space => g.(bullets := g.bullets + [Shot(g.player)])
    case OtherKey => g
  }

  /**
   The clamp: a left move never leaves x below 0, a right move never leaves
   the ship past the right edge, and at an edge the move into it does nothing.
   */
  lemma ClampHoldsAtEdges(p: Player)
    requires p.width <= CanvasWidth
    ensures MoveLeft(p).x >= 0.0
    ensures MoveRight(p).x + p.width <= CanvasWidth
    ensures p.x == 0.0 ==> MoveLeft(p) == p
    ensures p.x + p.width == CanvasWidth ==> MoveRight(p) == p
    ensures p.x >= Step ==> MoveLeft(p).x == p.x - Step
    ensures p.x + Step + p.width <= CanvasWidth ==> MoveRight(p).x == p.x + Step
  {
  }

  /** Away from both edges, left and right moves undo each other. */
  lemma LeftRightUndo(p: Player)
    requires Step <= p.x && p.x + Step + p.width <= CanvasWidth
    ensures MoveRight(MoveLeft(p)) == p
    ensures MoveLeft(MoveRight(p)) == p
  {
  }

  /**
   A fired bullet starts at the ship's top edge, centred on it: for the
   50-unit ship that is x = ship.x + 23. It lies inside the play area
   whenever the ship does.
   */
  lemma ShotIsCentred(p: Player)
    requires p.width == 50.0
    ensures Shot(p).x == p.x + 23.0 && Shot(p).y == p.y
    ensures Shot(p).width == 4.0 && Shot(p).height == 10.0
    ensures Shot(p).x + Shot(p).width / 2.0 == p.x + p.width / 2.0
    ensures ShipInBounds(p) ==> 0.0 <= Shot(p).x && Shot(p).x + Shot(p).width <= CanvasWidth
  {
  }

  /**
   Key handling as script.js writes it: each press builds a fresh ship at the
   centre, so arrow keys move a copy that is then discarded and every bullet
   leaves from the centre.
   */
  function MovePlayerAsWritten(g: GameState, key: Key): GameState
  {
    var player := Ship;
    match key
    case ArrowLeft => g
    case ArrowRight => g
    case Space => g.(bullets := g.bullets + [Shot(player)])
    case OtherKey => g
  }

  /**
   Left then fire, from the centred ship. As written the bullet still leaves
   from x = 398, as if the ship had not moved; with a persistent ship it
   leaves from x = 393, five units to the left.
   */
  lemma LeftThenFire(g: GameState)
    requires g.player == Ship
    ensures MovePlayerAsWritten(MovePlayerAsWritten(g, ArrowLeft), Space).bullets
         == g.bullets + [Bullet(398.0, 550.0, 4.0, 10.0)]
    ensures MovePlayer(MovePlayer(g, ArrowLeft), Space).bullets
         == g.bullets + [Bullet(393.0, 550.0, 4.0, 10.0)]
  {
  }

  /** As written, no sequence of non-space key presses changes any part of the game state. */
  lemma {:induction false} ArrowsHaveNoEffectAsWritten(g: GameState, keys: seq<Key>)
    requires forall k :: k in keys ==> k != Space
    ensures PressAllAsWritten(g, keys) == g
    decreases |keys|
  {
    if |keys| > 0 {
      assert keys[0] in keys;
      assert forall k :: k in keys[1..] ==> k in keys;
      ArrowsHaveNoEffectAsWritten(MovePlayerAsWritten(g, keys[0]), keys[1..]);
    }
  }

  /** Feeds `keys` one by one to the as-written handler. */
  function PressAllAsWritten(g: GameState, keys: seq<Key>): GameState
    decreases |keys|
  {
    if |keys| == 0 then g else PressAllAsWritten(MovePlayerAsWritten(g, keys[0]), keys[1..])
  }
}

=== FILE: economy.dfy ===
/**
 The two upgrade purchases. Each is all-or-nothing: when the coins cover the
 current cost every field change is committed, otherwise nothing changes.
 */
module Economy {
  import opened State
  import Shield

  const SpeedStep: real := 0.5
  const SpeedCostStep := 150
  const ShieldCostStep := 300

  /** Buy faster bullets: pay the cost, add 0.5 to bullet speed, raise the cost by 150. */
  function UpgradeSpeed(g: GameState): (r: GameState)
    ensures g.coins >= g.speedUpgradeCost ==>
      && r.coins == g.coins - g.speedUpgradeCost
      && r.bulletSpeed == g.bulletSpeed + SpeedStep
      && r.speedUpgradeCost == g.speedUpgradeCost + SpeedCostStep
    ensures g.coins < g.speedUpgradeCost ==> r == g
    ensures r.(coins := g.coins, bulletSpeed := g.bulletSpeed, speedUpgradeCost := g.speedUpgradeCost) == g
  {
    if g.coins >= g.speedUpgradeCost then
      g.(coins := g.coins - g.speedUpgradeCost,
         bulletSpeed := g.bulletSpeed + SpeedStep,
         speedUpgradeCost := g.speedUpgradeCost + SpeedCostStep)
    else g
  }

  /** Buy a shield: pay the cost, raise a full 600-tick shield, raise the cost by 300. */
  function UpgradeShield(g: GameState): (r: GameState)
    ensures g.coins >= g.shieldUpgradeCost ==>
      && r.coins == g.coins - g.shieldUpgradeCost
      && r.shield.active
      && r.shield.ticks == Shield.Duration
      && r.shieldUpgradeCost == g.shieldUpgradeCost + ShieldCostStep
    ensures g.coins < g.shieldUpgradeCost ==> r == g
    ensures r.(coins := g.coins, shield := g.shield, shieldUpgradeCost := g.shieldUpgradeCost) == g
  {
    if g.coins >= g.shieldUpgradeCost then
      g.(coins := g.coins - g.shieldUpgradeCost,
         shield := Shield.ShieldState(true, Shield.Duration),
         shieldUpgradeCost := g.shieldUpgradeCost + ShieldCostStep)
    else g
  }

  /**
   Neither purchase can create debt, lower a cost or slow the bullets, so the
   state invariant survives both; a purchase happens exactly when the coins
   cover the cost.
   */
  lemma UpgradesPreserveValid(g: GameState)
    requires Valid(g)
    ensures Valid(UpgradeSpeed(g)) && Valid(UpgradeShield(g))
    ensures UpgradeSpeed(g).coins <= g.coins && UpgradeShield(g).coins <= g.coins
    ensures UpgradeSpeed(g).speedUpgradeCost >= g.speedUpgradeCost
    ensures UpgradeShield(g).shieldUpgradeCost >= g.shieldUpgradeCost
    ensures UpgradeSpeed(g) != g <==> g.coins >= g.speedUpgradeCost
    ensures UpgradeShield(g) != g <==> g.coins >= g.shieldUpgradeCost
  {
  }

  /** The purchases worked through on concrete amounts. */
  lemma UpgradeExamples(g: GameState)
    ensures g.coins == 50 && g.speedUpgradeCost == 100 ==> UpgradeSpeed(g) == g
    ensures g.coins == 150 && g.speedUpgradeCost == 100 ==>
      UpgradeSpeed(g) == g.(coins := 50, bulletSpeed := g.bulletSpeed + 0.5, speedUpgradeCost := 250)
    ensures g.coins == 500 && g.shieldUpgradeCost == 500 ==>
      UpgradeShield(g) == g.(coins := 0, shield := Shield.ShieldState(true, 600), shieldUpgradeCost := 800)
  {
  }

  /** Total paid for `n` purchases when the first costs `first` and each raises the cost by `step`. */
  function CurveTotal(first: int, step: int, n: nat): int
    decreases n
  {
    if n == 0 then 0 else first + CurveTotal(first + step, step, n - 1)
  }

  /** The cost curve in closed form: n * first + step * n * (n - 1) / 2. */
  lemma {:induction false} CurveTotalClosedForm(first: int, step: int, n: nat)
    decreases n
    ensures 2 * CurveTotal(first, step, n) == 2 * n * first + step * n * (n - 1)
  {
    if n > 0 {
      CurveTotalClosedForm(first + step, step, n - 1);
      var k := n - 1;
      assert 2 * k * (first + step) == 2 * k * first + 2 * k * step;
      assert step * k * (k - 1) + 2 * k * step == step * k * (k + 1);
      assert 2 * (k + 1) * first == 2 * k * first + 2 * first;
      calc {
        2 * CurveTotal(first, step, n);
        2 * first + 2 * CurveTotal(first + step, step, k);
        2 * first + 2 * k * (first + step) + step * k * (k - 1);
        2 * n * first + step * n * (n - 1);
      }
    }
  }

  /** `n` speed purchases in a row. */
  function BuySpeedTimes(g: GameState, n: nat): GameState
    decreases n
  {
    if n == 0 then g else BuySpeedTimes(UpgradeSpeed(g), n - 1)
  }

  /**
   With enough coins for `n` speed purchases in a row, each one goes through:
   the coins drop by the cost curve's total, the cost rises by 150 per
   purchase and the bullet speed by 0.5 per purchase.
   */
  lemma {:induction false} RepeatedSpeedUpgrades(g: GameState, n: nat)
    decreases n
    requires g.speedUpgradeCost >= 0
    requires g.coins >= CurveTotal(g.speedUpgradeCost, SpeedCostStep, n)
    ensures BuySpeedTimes(g, n).coins == g.coins - CurveTotal(g.speedUpgradeCost, SpeedCostStep, n)
    ensures BuySpeedTimes(g, n).speedUpgradeCost == g.speedUpgradeCost + SpeedCostStep * n
    ensures BuySpeedTimes(g, n).bulletSpeed == g.bulletSpeed + SpeedStep * (n as real)
  {
    if n > 0 {
      CurveNonNegative(g.speedUpgradeCost + SpeedCostStep, SpeedCostStep, n - 1);
      RepeatedSpeedUpgrades(UpgradeSpeed(g), n - 1);
    }
  }

  /** A curve that starts and rises non-negatively never totals below zero. */
  lemma {:induction false} CurveNonNegative(first: int, step: int, n: nat)
    decreases n
    requires first >= 0 && step >= 0
    ensures CurveTotal(first, step, n) >= 0
  {
    if n > 0 {
      CurveNonNegative(first + step, step, n - 1);
    }
  }

  /** `n` shield purchases in a row. */
  function BuyShieldTimes(g: GameState, n: nat): GameState
    decreases n
  {
    if n == 0 then g else BuyShieldTimes(UpgradeShield(g), n - 1)
  }

  /**
   With enough coins for `n >= 1` shield purchases in a row, each one goes
   through: the coins drop by the cost curve's total, the cost rises by 300
   per purchase, and the shield ends up freshly raised to 600 ticks.
   */
  lemma {:induction false} RepeatedShieldUpgrades(g: GameState, n: nat)
    decreases n
    requires g.shieldUpgradeCost >= 0
    requires g.coins >= CurveTotal(g.shieldUpgradeCost, ShieldCostStep, n)
    ensures BuyShieldTimes(g, n).coins == g.coins - CurveTotal(g.shieldUpgradeCost, ShieldCostStep, n)
    ensures BuyShieldTimes(g, n).shieldUpgradeCost == g.shieldUpgradeCost + ShieldCostStep * n
    ensures n > 0 ==> BuyShieldTimes(g, n).shield == Shield.ShieldState(true, Shield.Duration)
  {
    if n > 0 {
      CurveNonNegative(g.shieldUpgradeCost + ShieldCostStep, ShieldCostStep, n - 1);
      RepeatedShieldUpgrades(UpgradeShield(g), n - 1);
    }
  }
}

=== FILE: entities.dfy ===
/**
 The records the game loop moves around: meteors of three kinds, bullets and
 the player's ship, together with the fixed 800 x 600 play area. Positions are
 exact reals; the browser's floating point is not modelled.
 */
module Entities {

  const CanvasWidth: real := 800.0
  const CanvasHeight: real := 600.0

  /** Meteor size class; the kind fixes speed, size and score value. */
  datatype Kind = Small | Medium | Large

  /** Downward distance a meteor of kind `k` falls per tick. */
  function Speed(k: Kind): (v: real)
    ensures 0.0 < v
  {
    match k
    case Small => 4.0
    case Medium => 2.0
    case Large => 1.0
  }

  /** Side length of the square a meteor of kind `k` occupies. */
  function Size(k: Kind): (side: real)
    ensures 0.0 < side < CanvasWidth
  {
    match k
    case Small => 20.0
    case Medium => 40.0
    case Large => 60.0
  }

  /** Score awarded for destroying a meteor of kind `k`. */
  function Cost(k: Kind): (points: int)
    ensures points > 0
  {
    match k
    case Small => 10
    case Medium => 20
    case Large => 50
  }

  /** A meteor's top-left corner; its width and height are `Size(kind)`. */
  datatype Meteor = Meteor(x: real, y: real, kind: Kind)

  /** A bullet's top-left corner and its own dimensions. */
  datatype Bullet = Bullet(x: real, y: real, width: real, height: real)

  /** The ship's top-left corner and dimensions. */
  datatype Player = Player(x: real, y: real, width: real, height: real)
}

=== FILE: game.dfy ===
/**
 The game loop: each tick spawns at most one meteor, moves both pools, then
 resolves collisions and counts the shield down. Between ticks the player's
 key presses and the upgrade and start buttons act on the same state. The
 random numbers a tick draws are passed in as a `Draws` record.
 */
module Game {
  import opened Entities
  import opened State
  import Motion
  import Collision
  import Shield
  import Economy
  import Seqs
  import Controls

  /** Chance per tick that a meteor spawns. */
  const SpawnChance: real := 0.02

  /**
   The four `Math.random()` results one tick may use: whether to spawn, the
   first and second coin flips choosing the kind, and the horizontal offset.
   */
  datatype Draws = Draws(spawn: real, kind: real, tieBreak: real, offset: real)

  predicate Unit(u: real)
  {
    0.0 <= u < 1.0
  }

  /** Every draw lies in [0, 1), as `Math.random()` guarantees. */
  predicate Fair(d: Draws)
  {
    Unit(d.spawn) && Unit(d.kind) && Unit(d.tieBreak) && Unit(d.offset)
  }

  /** Small on the first flip; otherwise medium or large on the second. */
  function ChooseKind(d: Draws): Kind
  {
    if d.kind < 0.5 then Small else if d.tieBreak < 0.5 then Medium else Large
  }

  /** A fraction in [0, 1) of a positive span stays inside the span. */
  lemma ScaleStaysBelow(u: real, span: real)
    requires Unit(u) && span > 0.0
    ensures 0.0 <= u * span < span
  {
    assert span - u * span == (1.0 - u) * span;
  }

  /**
   The spawner: with a draw below 0.02 it appends one meteor of the chosen
   kind at the top edge, fully inside the play area horizontally; otherwise
   it does nothing. Nothing but the meteor pool changes.
   */
  function Spawn(g: GameState, d: Draws): (r: GameState)
    requires Fair(d)
    ensures d.spawn >= SpawnChance ==> r == g
    ensures d.spawn < SpawnChance ==>
      && |r.meteors| == |g.meteors| + 1
      && r.meteors[..|g.meteors|] == g.meteors
      && r.meteors[|g.meteors|].kind == ChooseKind(d)
      && r.meteors[|g.meteors|].y == 0.0
      && 0.0 <= r.meteors[|g.meteors|].x
      && r.meteors[|g.meteors|].x + Size(ChooseKind(d)) < CanvasWidth
    ensures r.(meteors := g.meteors) == g
  {
    if d.spawn < SpawnChance then
      var k := ChooseKind(d);
      ScaleStaysBelow(d.offset, CanvasWidth - Size(k));
      g.(meteors := g.meteors + [Meteor(d.offset * (CanvasWidth - Size(k)), 0.0, k)])
    else g
  }

  /** Both motion updaters, meteors first. */
  function Move(g: GameState): (r: GameState)
    ensures forall m :: m in r.meteors ==> m.y < CanvasHeight
    ensures forall b :: b in r.bullets ==> b.y > 0.0
    ensures r.(meteors := g.meteors, bullets := g.bullets) == g
  {
    g.(meteors := Motion.UpdateMeteors(g.meteors),
       bullets := Motion.UpdateBullets(g.bullets, g.bulletSpeed))
  }

  /** One collision pass followed by one shield countdown tick. */
  function CheckCollisions(g: GameState): (r: GameState)
    ensures r.score >= g.score
    ensures r.score - g.score == Collision.TotalCost(g.meteors) - Collision.TotalCost(r.meteors)
    ensures |g.bullets| - |r.bullets| == |g.meteors| - |r.meteors|
    ensures forall b, m :: b in r.bullets && m in r.meteors ==> !Collision.Overlaps(b, m)
    ensures forall j :: 0 <= j < |g.bullets| && (forall i :: 0 <= i < |g.meteors| ==> !Collision.Overlaps(g.bullets[j], g.meteors[i])) ==>
      g.bullets[j] in r.bullets
    ensures forall i :: 0 <= i < |g.meteors| && (forall j :: 0 <= j < |g.bullets| ==> !Collision.Overlaps(g.bullets[j], g.meteors[i])) ==>
      g.meteors[i] in r.meteors
    ensures Seqs.IsSubsequence(r.bullets, g.bullets) && Seqs.IsSubsequence(r.meteors, g.meteors)
    ensures multiset(r.bullets) <= multiset(g.bullets) && multiset(r.meteors) <= multiset(g.meteors)
    ensures Collision.PairedRemoval(g.bullets, g.meteors, r.bullets, r.meteors)
    ensures r.shield == Shield.Countdown(g.shield)
    ensures r.(score := g.score, meteors := g.meteors, bullets := g.bullets, shield := g.shield) == g
  {
    Collision.ResolveGuarantees(g.bullets, g.meteors);
    var o := Collision.Resolve(g.bullets, g.meteors);
    g.(bullets := o.bullets, meteors := o.meteors, score := g.score + o.gain,
       shield := Shield.Countdown(g.shield))
  }

  /** One tick of the game loop: spawn, then move, then collide. */
  function Tick(g: GameState, d: Draws): GameState
    requires Fair(d)
  {
    CheckCollisions(Move(Spawn(g, d)))
  }

  /**
   A tick keeps the state invariant: afterwards every meteor is above the
   bottom edge and every bullet below the top edge. It never lowers the score
   and touches neither the coins, the upgrade costs, the bullet speed nor the
   ship.
   */
  lemma TickPreservesValid(g: GameState, d: Draws)
    requires Valid(g) && Fair(d)
    ensures Valid(Tick(g, d))
    ensures Tick(g, d).score >= g.score
    ensures Tick(g, d).coins == g.coins
    ensures Tick(g, d).speedUpgradeCost == g.speedUpgradeCost
    ensures Tick(g, d).shieldUpgradeCost == g.shieldUpgradeCost
    ensures Tick(g, d).bulletSpeed == g.bulletSpeed
    ensures Tick(g, d).player == g.player
  {
    var s := Spawn(g, d);
    assert forall m :: m in s.meteors ==> 0.0 <= m.y by {
      if d.spawn < SpawnChance {
        assert s.meteors == g.meteors + [s.meteors[|g.meteors|]];
      }
    }
    var mv := Move(s);
    forall m | m in mv.meteors
      ensures 0.0 <= m.y
    {
      var i :| 0 <= i < |s.meteors| && m == Motion.Fall(s.meteors[i]);
      assert s.meteors[i] in s.meteors;
    }
    var r := CheckCollisions(mv);
    assert forall m :: m in r.meteors ==> m in mv.meteors by {
      forall m | m in r.meteors ensures m in mv.meteors {
        assert m in multiset(r.meteors);
      }
    }
    assert forall b :: b in r.bullets ==> b in mv.bullets by {
      forall b | b in r.bullets ensures b in mv.bullets {
        assert b in multiset(r.bullets);
      }
    }
  }

  /** Something that can happen to a game: a tick, a key press or a button click. */
  datatype Event =
    | Frame(draws: Draws)
    | Press(key: Controls.Key)
    | SpeedButton
    | ShieldButton
    | StartButton

  predicate WellFormed(e: Event)
  {
    e.Frame? ==> Fair(e.draws)
  }

  /** Applies one event. */
  function Apply(g: GameState, e: Event): GameState
    requires WellFormed(e)
  {
    match e
    case Frame(d) => Tick(g, d)
    case Press(k) => Controls.MovePlayer(g, k)
    case SpeedButton => Economy.UpgradeSpeed(g)
    case ShieldButton => Economy.UpgradeShield(g)
    case StartButton => StartGame(g)
  }

  /** Applies a sequence of events in order. */
  function Play(g: GameState, es: seq<Event>): GameState
    requires forall e :: e in es ==> WellFormed(e)
    decreases |es|
  {
    if |es| == 0 then g else Play(Apply(g, es[0]), es[1..])
  }

  /** Every event keeps the state invariant. */
  lemma ApplyPreservesValid(g: GameState, e: Event)
    requires Valid(g) && WellFormed(e)
    ensures Valid(Apply(g, e))
    ensures e != StartButton ==> Apply(g, e).score >= g.score
    ensures e != StartButton ==> Apply(g, e).coins <= g.coins
    ensures !(e.SpeedButton? || e.ShieldButton? || e.StartButton?) ==> Apply(g, e).coins == g.coins
  {
    match e
    case Frame(d) => TickPreservesValid(g, d);
    case Press(k) =>
      var r := Controls.MovePlayer(g, k);
      assert forall b :: b in r.bullets ==> b in g.bullets || b == Controls.Shot(g.player);
    case SpeedButton => Economy.UpgradesPreserveValid(g);
    case ShieldButton => Economy.UpgradesPreserveValid(g);
    case StartButton =>
  }

  /**
   Over any session without a restart the invariant holds throughout, the
   score never drops and the coins never rise; without upgrade purchases the
   coins do not change at all.
   */
  lemma {:induction false} PlayPreservesValid(g: GameState, es: seq<Event>)
    requires Valid(g)
    requires forall e :: e in es ==> WellFormed(e)
    decreases |es|
    ensures Valid(Play(g, es))
    ensures StartButton !in es ==> Play(g, es).score >= g.score && Play(g, es).coins <= g.coins
    ensures (forall e :: e in es ==> e.Frame? || e.Press?) ==> Play(g, es).coins == g.coins
  {
    if |es| > 0 {
      assert es[0] in es;
      assert forall e :: e in es[1..] ==> e in es;
      ApplyPreservesValid(g, es[0]);
      PlayPreservesValid(Apply(g, es[0]), es[1..]);
    }
  }
}

=== FILE: motion.dfy ===
/**
 The motion updaters run once per tick: every meteor falls by its kind's
 speed, every bullet rises by the shared bullet speed, and entities that have
 left the play area are filtered out.
 */
module Motion {
  import opened Entities
  import opened Seqs

  /** A meteor one tick later. */
  function Fall(m: Meteor): Meteor
  {
    m.(y := m.y + Speed(m.kind))
  }

  /** A bullet one tick later, at bullet speed `speed`. */
  function Rise(b: Bullet, speed: real): Bullet
  {
    b.(y := b.y - speed)
  }

  /** Flags for the meteors that are still above the bottom edge once they have fallen. */
  function StillFalling(ms: seq<Meteor>): seq<bool>
  {
    seq(|ms|, i requires 0 <= i < |ms| => Fall(ms[i]).y < CanvasHeight)
  }

  /** Flags for the bullets that are still below the top edge once they have risen. */
  function StillRising(bs: seq<Bullet>, speed: real): seq<bool>
  {
    seq(|bs|, i requires 0 <= i < |bs| => Rise(bs[i], speed).y > 0.0)
  }

  /** Moves every meteor down, then drops those at or below the bottom edge. */
  function UpdateMeteors(ms: seq<Meteor>): (r: seq<Meteor>)
    ensures |r| <= |ms|
    ensures forall m :: m in r ==> m.y < CanvasHeight
    ensures forall m :: m in r ==> exists i :: 0 <= i < |ms| && m == Fall(ms[i])
  {
    var moved := seq(|ms|, i requires 0 <= i < |ms| => Fall(ms[i]));
    SelectMembers(moved, StillFalling(ms));
    Select(moved, StillFalling(ms))
  }

  /** Moves every bullet up by `speed`, then drops those at or above the top edge. */
  function UpdateBullets(bs: seq<Bullet>, speed: real): (r: seq<Bullet>)
    ensures |r| <= |bs|
    ensures forall b :: b in r ==> b.y > 0.0
    ensures forall b :: b in r ==> exists i :: 0 <= i < |bs| && b == Rise(bs[i], speed)
  {
    var moved := seq(|bs|, i requires 0 <= i < |bs| => Rise(bs[i], speed));
    SelectMembers(moved, StillRising(bs, speed));
    Select(moved, StillRising(bs, speed))
  }

  /**
   The meteor update is exactly "fall, then keep the on-screen ones in order":
   the survivors are the fallen meteors at increasing positions of the old
   pool, and a meteor survives exactly when its new y is below the bottom edge.
   */
  lemma UpdateMeteorsExact(ms: seq<Meteor>)
    ensures exists idx ::
              && IncreasingBelow(idx, |ms|)
              && |idx| == |UpdateMeteors(ms)|
              && (forall k :: 0 <= k < |idx| ==>
                    UpdateMeteors(ms)[k] == Fall(ms[idx[k]]))
              && (forall i :: 0 <= i < |ms| ==> (i in idx <==> ms[i].y + Speed(ms[i].kind) < CanvasHeight))
  {
    var moved := seq(|ms|, i requires 0 <= i < |ms| => Fall(ms[i]));
    SelectIsOrderedPick(moved, StillFalling(ms));
    var idx := Positions(StillFalling(ms));
    var r := UpdateMeteors(ms);
    assert IncreasingBelow(idx, |ms|) && |idx| == |r|;
    assert forall k :: 0 <= k < |idx| ==> r[k] == Fall(ms[idx[k]]);
    assert forall i :: 0 <= i < |ms| ==> (i in idx <==> ms[i].y + Speed(ms[i].kind) < CanvasHeight);
  }

  /**
   The bullet update is exactly "rise, then keep the on-screen ones in order":
   survivors keep x, width and height, their y drops by `speed`, and a bullet
   survives exactly when its new y is above the top edge.
   */
  lemma UpdateBulletsExact(bs: seq<Bullet>, speed: real)
    ensures exists idx ::
              && IncreasingBelow(idx, |bs|)
              && |idx| == |UpdateBullets(bs, speed)|
              && (forall k :: 0 <= k < |idx| ==>
                    var b := UpdateBullets(bs, speed)[k];
                    && b.x == bs[idx[k]].x
                    && b.width == bs[idx[k]].width
                    && b.height == bs[idx[k]].height
                    && b.y == bs[idx[k]].y - speed)
              && (forall i :: 0 <= i < |bs| ==> (i in idx <==> bs[i].y - speed > 0.0))
  {
    var moved := seq(|bs|, i requires 0 <= i < |bs| => Rise(bs[i], speed));
    SelectIsOrderedPick(moved, StillRising(bs, speed));
    var idx := Positions(StillRising(bs, speed));
    var r := UpdateBullets(bs, speed);
    assert IncreasingBelow(idx, |bs|) && |idx| == |r|;
    assert forall k :: 0 <= k < |idx| ==> r[k] == Rise(bs[idx[k]], speed);
    assert forall i :: 0 <= i < |bs| ==> (i in idx <==> bs[i].y - speed > 0.0);
  }
}

=== FILE: seqs.dfy ===
/**
 Sequence filtering by a mask of flags. The game filters both of its entity
 pools (`Array.prototype.filter`) and removes matched entities after a
 collision scan; both are "keep the flagged elements, in order".
 */
module Seqs {

  /** Number of set flags in `mask`. */
  function Count(mask: seq<bool>): (n: nat)
    ensures n <= |mask|
  {
    if |mask| == 0 then 0 else (if mask[0] then 1 else 0) + Count(mask[1..])
  }

  /** The mask with every flag flipped. */
  function Negate(mask: seq<bool>): seq<bool>
  {
    seq(|mask|, i requires 0 <= i < |mask| => !mask[i])
  }

  /** The elements of `s` whose flag in `mask` is set, in their original order. */
  function Select<T>(s: seq<T>, mask: seq<bool>): (r: seq<T>)
    requires |mask| == |s|
    ensures |r| == Count(mask)
  {
    if |s| == 0 then [] else (if mask[0] then [s[0]] else []) + Select(s[1..], mask[1..])
  }

  /** A strictly increasing sequence of indices, each below `n`. */
  ghost predicate IncreasingBelow(idx: seq<nat>, n: nat)
  {
    && (forall k :: 0 <= k < |idx| ==> idx[k] < n)
    && (forall k, l :: 0 <= k < l < |idx| ==> idx[k] < idx[l])
  }

  /** The positions at or after `from` whose flag is set, in increasing order. */
  function PositionsFrom(mask: seq<bool>, from: nat): (p: seq<nat>)
    requires from <= |mask|
    decreases |mask| - from
    ensures |p| == Count(mask[from..])
    ensures forall k :: 0 <= k < |p| ==> from <= p[k] < |mask| && mask[p[k]]
    ensures forall k, l :: 0 <= k < l < |p| ==> p[k] < p[l]
    ensures forall i :: from <= i < |mask| && mask[i] ==> i in p
  {
    if from == |mask| then []
    else
      var rest := PositionsFrom(mask, from + 1);
      assert mask[from..][1..] == mask[from + 1..];
      if mask[from] then [from] + rest else rest
  }

  /** The positions of the set flags of `mask`, in increasing order. */
  function Positions(mask: seq<bool>): seq<nat>
  {
    PositionsFrom(mask, 0)
  }

  /** The k-th element kept from `s[from..]` is the element at the k-th flagged position. */
  lemma {:induction false} SelectAt<T>(s: seq<T>, mask: seq<bool>, from: nat, k: nat)
    requires |mask| == |s| && from <= |s| && k < |PositionsFrom(mask, from)|
    decreases |s| - from
    ensures Select(s[from..], mask[from..])[k] == s[PositionsFrom(mask, from)[k]]
  {
    assert s[from..][1..] == s[from + 1..];
    assert mask[from..][1..] == mask[from + 1..];
    var rest := Select(s[from + 1..], mask[from + 1..]);
    assert Select(s[from..], mask[from..]) == (if mask[from] then [s[from]] else []) + rest;
    if !mask[from] {
      SelectAt(s, mask, from + 1, k);
    } else if k > 0 {
      SelectAt(s, mask, from + 1, k - 1);
    }
  }

  /**
   Filtering is order-preserving and exact: the kept elements are the flagged
   elements of `s`, picked at the increasing positions `Positions(mask)`, and
   a position is picked exactly when its flag is set.
   */
  lemma SelectIsOrderedPick<T>(s: seq<T>, mask: seq<bool>)
    requires |mask| == |s|
    ensures IncreasingBelow(Positions(mask), |s|)
    ensures |Positions(mask)| == |Select(s, mask)|
    ensures forall k :: 0 <= k < |Positions(mask)| ==> Select(s, mask)[k] == s[Positions(mask)[k]]
    ensures forall i :: 0 <= i < |s| ==> (i in Positions(mask) <==> mask[i])
  {
    assert s[0..] == s && mask[0..] == mask;
    forall k | 0 <= k < |Positions(mask)|
      ensures Select(s, mask)[k] == s[Positions(mask)[k]]
    {
      SelectAt(s, mask, 0, k);
    }
  }

  /**
   `r` is `s` with some elements left out: the elements of `r` are those of
   `s` at strictly increasing positions, so their order is kept.
   */
  ghost predicate IsSubsequence<T>(r: seq<T>, s: seq<T>)
  {
    exists idx: seq<nat> :: IsPick(idx, r, s)
  }

  /** `idx` picks `r` out of `s`: increasing positions of `s` holding the elements of `r` in order. */
  ghost predicate IsPick<T>(idx: seq<nat>, r: seq<T>, s: seq<T>)
  {
    && IncreasingBelow(idx, |s|)
    && |idx| == |r|
    && forall k :: 0 <= k < |idx| ==> r[k] == s[idx[k]]
  }

  /** Filtering leaves a subsequence: nothing is added, duplicated or reordered. */
  lemma SelectIsSubsequence<T>(s: seq<T>, mask: seq<bool>)
    requires |mask| == |s|
    ensures IsSubsequence(Select(s, mask), s)
  {
    SelectIsOrderedPick(s, mask);
    assert IsPick(Positions(mask), Select(s, mask), s);
  }

  /** Filtering keeps at most as many copies of each value as there were. */
  lemma {:induction false} SelectSubMultiset<T>(s: seq<T>, mask: seq<bool>)
    requires |mask| == |s|
    ensures multiset(Select(s, mask)) <= multiset(s)
  {
    if |s| > 0 {
      SelectSubMultiset(s[1..], mask[1..]);
      assert s == [s[0]] + s[1..];
    }
  }

  /** Flipping every flag turns the kept count into the dropped count. */
  lemma {:induction false} CountNegate(mask: seq<bool>)
    ensures Count(Negate(mask)) == |mask| - Count(mask)
  {
    if |mask| > 0 {
      CountNegate(mask[1..]);
      assert Negate(mask)[1..] == Negate(mask[1..]);
    }
  }

  /** Setting one clear flag raises the count by exactly one. */
  lemma {:induction false} CountMark(mask: seq<bool>, i: nat)
    requires i < |mask| && !mask[i]
    ensures Count(mask[i := true]) == Count(mask) + 1
  {
    if i > 0 {
      CountMark(mask[1..], i - 1);
      assert mask[i := true][1..] == mask[1..][i - 1 := true];
    } else {
      assert mask[i := true][1..] == mask[1..];
    }
  }

  /** A mask with no flag set. */
  function NoneSet(n: nat): (mask: seq<bool>)
    ensures |mask| == n && Count(mask) == 0
    ensures forall i :: 0 <= i < n ==> !mask[i]
  {
    if n == 0 then [] else [false] + NoneSet(n - 1)
  }

  /** Filtering keeps every flagged element and nothing that was not flagged. */
  lemma SelectMembers<T>(s: seq<T>, mask: seq<bool>)
    requires |mask| == |s|
    ensures forall x :: x in Select(s, mask) ==> exists i :: 0 <= i < |s| && mask[i] && s[i] == x
    ensures forall i :: 0 <= i < |s| && mask[i] ==> s[i] in Select(s, mask)
  {
    SelectIsOrderedPick(s, mask);
    var r := Select(s, mask);
    var p := Positions(mask);
    forall x | x in r
      ensures exists i :: 0 <= i < |s| && mask[i] && s[i] == x
    {
      var k :| 0 <= k < |r| && r[k] == x;
      assert mask[p[k]] && s[p[k]] == x;
    }
    forall i | 0 <= i < |s| && mask[i]
      ensures s[i] in r
    {
      assert i in p;
      var k :| 0 <= k < |p| && p[k] == i;
      assert r[k] == s[i];
    }
  }
}

=== FILE: shield.dfy ===
/**
 The shield timer: an active flag and the number of ticks left. It counts
 down once per collision pass and switches itself off when it runs out.
 */
module Shield {

  datatype ShieldState = ShieldState(active: bool, ticks: int)

  /** The shield state at the start of a game. */
  const Off := ShieldState(false, 0)

  /** Ticks bought by one shield upgrade (10 seconds at 60 ticks per second). */
  const Duration := 600

  /** An active shield has ticks left; an inactive one has none. */
  predicate Valid(s: ShieldState)
  {
    s.ticks >= 0 && (s.active <==> s.ticks > 0)
  }

  /** One tick of the countdown run at the end of every collision pass. */
  function Countdown(s: ShieldState): (r: ShieldState)
    ensures !s.active ==> r == s
    ensures s.active ==> r.ticks == s.ticks - 1 && (r.active <==> r.ticks > 0)
    ensures Valid(s) ==> Valid(r)
  {
    if s.active then
      var left := s.ticks - 1;
      ShieldState(!(left <= 0), left)
    else s
  }

  /** The shield after `n` countdown ticks. */
  function CountdownTimes(s: ShieldState, n: nat): ShieldState
  {
    if n == 0 then s else Countdown(CountdownTimes(s, n - 1))
  }

  /** Started with `d` ticks, the shield has `d - k` ticks left after `k` ticks. */
  lemma {:induction false} CountdownFrom(d: int, k: nat)
    requires 1 <= d && k <= d
    ensures CountdownTimes(ShieldState(true, d), k) == ShieldState(k < d, d - k)
  {
    if k > 0 {
      CountdownFrom(d, k - 1);
    }
  }

  /**
   A shield started with `d` ticks stays up for exactly `d` countdown ticks:
   it is active after every earlier tick and off, with no ticks left, after
   the `d`-th.
   */
  lemma ShieldLastsExactly(d: int)
    requires d >= 1
    ensures forall k: nat :: k < d ==> CountdownTimes(ShieldState(true, d), k).active
    ensures CountdownTimes(ShieldState(true, d), d) == Off
  {
    forall k: nat | k < d
      ensures CountdownTimes(ShieldState(true, d), k).active
    {
      CountdownFrom(d, k);
    }
    CountdownFrom(d, d);
  }

  /** An inactive shield never changes, however many ticks pass. */
  lemma {:induction false} InactiveStaysPut(s: ShieldState, n: nat)
    requires !s.active
    ensures CountdownTimes(s, n) == s
  {
    if n > 0 {
      InactiveStaysPut(s, n - 1);
    }
  }
}

=== FILE: splice.dfy ===
/**
 The collision loop of script.js as written: nested `forEach` over the live
 bullet and meteor arrays, calling `splice` on both while iterating. This
 module exists to exhibit how that differs from `Collision.Resolve`; the rest
 of the model uses `Collision.Resolve`.

 `forEach` fixes its bound when it starts, reads each element when it reaches
 it, and skips indices that no longer exist because the array shrank.
 `splice(i, 1)` removes the element at `i`, or nothing when `i` is past the end.
 */
module Splice {
  import opened Entities
  import Collision
  import Seqs
  import Wrappers

  /** `Array.prototype.splice(i, 1)` on a sequence, ignoring the removed element. */
  function SpliceOne<T>(s: seq<T>, i: nat): (r: seq<T>)
    ensures |r| == if i < |s| then |s| - 1 else |s|
  {
    if i < |s| then s[..i] + s[i + 1..] else s
  }

  /**
   What `splice(i, 1)` does to the array: the elements before `i` stay put,
   the ones after it move down one index, and exactly one copy of `s[i]` is
   gone. Past the end nothing happens.
   */
  lemma SpliceOneShifts<T>(s: seq<T>, i: nat)
    ensures var r := SpliceOne(s, i);
      && (i < |s| ==> forall k :: 0 <= k < i ==> r[k] == s[k])
      && (i < |s| ==> forall k :: i <= k < |r| ==> r[k] == s[k + 1])
      && (i < |s| ==> multiset(r) + multiset{s[i]} == multiset(s))
      && (i >= |s| ==> r == s)
  {
    if i < |s| {
      assert s == s[..i] + [s[i]] + s[i + 1..];
    }
  }

  /** The live arrays and the score while the nested loops run. */
  datatype Arena = Arena(bullets: seq<Bullet>, meteors: seq<Meteor>, score: int)

  /**
   The inner `meteors.forEach` for the bullet read at outer index `bIndex`,
   from meteor index `mIndex` up to the bound `len` fixed when it started.
   */
  function InnerLoop(bullet: Bullet, bIndex: nat, a: Arena, mIndex: nat, len: nat): Arena
    decreases len - mIndex
  {
    if mIndex >= len || mIndex >= |a.meteors| then a
    else
      var m := a.meteors[mIndex];
      var next :=
        if Collision.Overlaps(bullet, m) then
          Arena(SpliceOne(a.bullets, bIndex), SpliceOne(a.meteors, mIndex), a.score + Cost(m.kind))
        else a;
      InnerLoop(bullet, bIndex, next, mIndex + 1, len)
  }

  /** The outer `bullets.forEach`, from bullet index `bIndex` up to the bound `len`. */
  function OuterLoop(a: Arena, bIndex: nat, len: nat): Arena
    decreases len - bIndex
  {
    if bIndex >= len || bIndex >= |a.bullets| then a
    else OuterLoop(InnerLoop(a.bullets[bIndex], bIndex, a, 0, |a.meteors|), bIndex + 1, len)
  }

  /** The collision part of `checkCollisions` exactly as script.js writes it. */
  function CheckCollisionsAsWritten(bs: seq<Bullet>, ms: seq<Meteor>, score: int): Arena
  {
    OuterLoop(Arena(bs, ms, score), 0, |bs|)
  }

  /** As written, one bullet over three stacked small meteors destroys the first and the third. */
  lemma StackedMeteorsAsWritten()
    ensures var m := Meteor(100.0, 50.0, Small);
      CheckCollisionsAsWritten([Bullet(100.0, 50.0, 4.0, 10.0)], [m, m, m], 0) == Arena([], [m], 20)
  {
    var b := Bullet(100.0, 50.0, 4.0, 10.0);
    var m := Meteor(100.0, 50.0, Small);
    assert Collision.Overlaps(b, m);
    var a0 := Arena([b], [m, m, m], 0);
    var a1 := Arena([], [m, m], 10);
    var a2 := Arena([], [m], 20);
    assert SpliceOne([m, m, m], 0) == [m, m];
    assert SpliceOne([m, m], 1) == [m];
    assert InnerLoop(b, 0, a0, 0, 3) == InnerLoop(b, 0, a1, 1, 3);
    assert InnerLoop(b, 0, a1, 1, 3) == InnerLoop(b, 0, a2, 2, 3);
    assert InnerLoop(b, 0, a2, 2, 3) == a2;
    assert OuterLoop(a0, 0, 1) == OuterLoop(a2, 1, 1) == a2;
  }

  /** The snapshot pass lets the same bullet destroy only the first of the three meteors. */
  lemma StackedMeteorsIntended()
    ensures var m := Meteor(100.0, 50.0, Small);
      Collision.Resolve([Bullet(100.0, 50.0, 4.0, 10.0)], [m, m, m]) == Collision.Outcome([], [m, m], 10)
  {
    var b := Bullet(100.0, 50.0, 4.0, 10.0);
    var m := Meteor(100.0, 50.0, Small);
    assert Collision.Overlaps(b, m);
    var none := Seqs.NoneSet(3);
    assert none == [false, false, false];
    assert Collision.FirstFree(b, [m, m, m], none, 0) == Wrappers.Some(0);
    assert [b][1..] == [];
    assert none[0 := true] == [true, false, false];
    assert Collision.Scan([], [m, m, m], [true, false, false])
        == Collision.Matching([], [true, false, false], 0);
    var p := Collision.Scan([b], [m, m, m], none);
    assert p.hits == [Wrappers.Some(0)];
    assert p.taken == [true, false, false];
    assert p.gain == 10;
    assert Seqs.Negate(p.taken) == [false, true, true];
    assert Seqs.Negate(Collision.Spent(p.hits)) == [false];
    assert Seqs.Select([m], [true]) == [m];
    assert Seqs.Select([m, m], [true, true]) == [m] + Seqs.Select([m], [true]);
    assert Seqs.Select([m, m, m], [false, true, true]) == Seqs.Select([m, m], [true, true]);
    assert Seqs.Select([b], [false]) == [];
  }

  /**
   As written, after bullet 0 hits, bullet 1 shifts into index 0, which the
   outer loop has already passed: the second pair, at (500, 50), overlaps
   yet survives the pass.
   */
  lemma ShiftedBulletSkippedAsWritten()
    ensures var b0 := Bullet(100.0, 50.0, 4.0, 10.0);
      var b1 := Bullet(500.0, 50.0, 4.0, 10.0);
      var m1 := Meteor(500.0, 50.0, Small);
      && CheckCollisionsAsWritten([b0, b1], [Meteor(100.0, 50.0, Small), m1], 0) == Arena([b1], [m1], 10)
      && Collision.Overlaps(b1, m1)
  {
    var b0 := Bullet(100.0, 50.0, 4.0, 10.0);
    var b1 := Bullet(500.0, 50.0, 4.0, 10.0);
    var m0 := Meteor(100.0, 50.0, Small);
    var m1 := Meteor(500.0, 50.0, Small);
    assert Collision.Overlaps(b0, m0);
    var a0 := Arena([b0, b1], [m0, m1], 0);
    var a1 := Arena([b1], [m1], 10);
    assert SpliceOne([b0, b1], 0) == [b1];
    assert SpliceOne([m0, m1], 0) == [m1];
    assert InnerLoop(b0, 0, a0, 0, 2) == InnerLoop(b0, 0, a1, 1, 2) == a1;
    assert OuterLoop(a0, 0, 2) == OuterLoop(a1, 1, 2) == a1;
  }

  /** The snapshot pass removes both overlapping pairs of `ShiftedBulletSkippedAsWritten`. */
  lemma ShiftedBulletTestedIntended()
    ensures var b0 := Bullet(100.0, 50.0, 4.0, 10.0);
      var b1 := Bullet(500.0, 50.0, 4.0, 10.0);
      Collision.Resolve([b0, b1], [Meteor(100.0, 50.0, Small), Meteor(500.0, 50.0, Small)])
        == Collision.Outcome([], [], 20)
  {
    var b0 := Bullet(100.0, 50.0, 4.0, 10.0);
    var b1 := Bullet(500.0, 50.0, 4.0, 10.0);
    var m0 := Meteor(100.0, 50.0, Small);
    var m1 := Meteor(500.0, 50.0, Small);
    var none := Seqs.NoneSet(2);
    assert none == [false, false];
    assert Collision.Overlaps(b0, m0) && !Collision.Overlaps(b1, m0) && Collision.Overlaps(b1, m1);
    assert Collision.FirstFree(b0, [m0, m1], none, 0) == Wrappers.Some(0);
    assert Collision.FirstFree(b1, [m0, m1], [true, false], 0) == Wrappers.Some(1);
    assert [b0, b1][1..] == [b1] && [b1][1..] == [];
    assert none[0 := true] == [true, false];
    assert [true, false][1 := true] == [true, true];
    assert Collision.Scan([], [m0, m1], [true, true]) == Collision.Matching([], [true, true], 0);
    assert Collision.Scan([b1], [m0, m1], [true, false])
        == Collision.Matching([Wrappers.Some(1)], [true, true], 10);
    var p := Collision.Scan([b0, b1], [m0, m1], none);
    assert p == Collision.Matching([Wrappers.Some(0), Wrappers.Some(1)], [true, true], 20);
    assert Seqs.Negate(p.taken) == [false, false];
    assert Seqs.Negate(Collision.Spent(p.hits)) == [false, false];
    assert Seqs.Select([m1], [false]) == [];
    assert Seqs.Select([b1], [false]) == [];
  }

  /**
   As written, the consumed bullet 0 goes on to destroy the meteor that slid
   under it and takes bullet 1, which sits at (700, 300) and touches nothing,
   out of the array with it.
   */
  lemma UnrelatedBulletRemovedAsWritten()
    ensures var m := Meteor(100.0, 50.0, Small);
      var x := Meteor(400.0, 50.0, Small);
      var b1 := Bullet(700.0, 300.0, 4.0, 10.0);
      && CheckCollisionsAsWritten([Bullet(100.0, 50.0, 4.0, 10.0), b1], [m, x, m], 0) == Arena([], [x], 20)
      && !Collision.Overlaps(b1, m) && !Collision.Overlaps(b1, x)
  {
    var b0 := Bullet(100.0, 50.0, 4.0, 10.0);
    var b1 := Bullet(700.0, 300.0, 4.0, 10.0);
    var m := Meteor(100.0, 50.0, Small);
    var x := Meteor(400.0, 50.0, Small);
    assert Collision.Overlaps(b0, m);
    var a0 := Arena([b0, b1], [m, x, m], 0);
    var a1 := Arena([b1], [x, m], 10);
    var a2 := Arena([], [x], 20);
    assert SpliceOne([b0, b1], 0) == [b1];
    assert SpliceOne([m, x, m], 0) == [x, m];
    assert SpliceOne([x, m], 1) == [x];
    assert InnerLoop(b0, 0, a0, 0, 3) == InnerLoop(b0, 0, a1, 1, 3);
    assert InnerLoop(b0, 0, a1, 1, 3) == InnerLoop(b0, 0, a2, 2, 3) == a2;
    assert OuterLoop(a0, 0, 2) == OuterLoop(a2, 1, 2) == a2;
  }

  /** The snapshot pass leaves the untouched bullet and both other meteors in place. */
  lemma UnrelatedBulletKeptIntended()
    ensures var m := Meteor(100.0, 50.0, Small);
      var x := Meteor(400.0, 50.0, Small);
      var b1 := Bullet(700.0, 300.0, 4.0, 10.0);
      Collision.Resolve([Bullet(100.0, 50.0, 4.0, 10.0), b1], [m, x, m]) == Collision.Outcome([b1], [x, m], 10)
  {
    var b0 := Bullet(100.0, 50.0, 4.0, 10.0);
    var b1 := Bullet(700.0, 300.0, 4.0, 10.0);
    var m := Meteor(100.0, 50.0, Small);
    var x := Meteor(400.0, 50.0, Small);
    UnrelatedBulletScan();
    var p := Collision.Scan([b0, b1], [m, x, m], Seqs.NoneSet(3));
    assert Seqs.Negate(p.taken) == [false, true, true];
    assert Seqs.Negate(Collision.Spent(p.hits)) == [false, true];
    assert Seqs.Select([m, x, m], [false, true, true]) == [x, m] by {
      assert Seqs.Select([m], [true]) == [m];
      assert Seqs.Select([x, m], [true, true]) == [x] + Seqs.Select([m], [true]);
    }
    assert Seqs.Select([b0, b1], [false, true]) == [b1] by {
      assert Seqs.Select([b1], [true]) == [b1];
    }
  }

  /** The scan behind `UnrelatedBulletKeptIntended`: bullet 0 claims meteor 0, bullet 1 claims nothing. */
  lemma UnrelatedBulletScan()
    ensures var m := Meteor(100.0, 50.0, Small);
      Collision.Scan([Bullet(100.0, 50.0, 4.0, 10.0), Bullet(700.0, 300.0, 4.0, 10.0)],
                     [m, Meteor(400.0, 50.0, Small), m], Seqs.NoneSet(3))
        == Collision.Matching([Wrappers.Some(0), Wrappers.None], [true, false, false], 10)
  {
    var b0 := Bullet(100.0, 50.0, 4.0, 10.0);
    var b1 := Bullet(700.0, 300.0, 4.0, 10.0);
    var m := Meteor(100.0, 50.0, Small);
    var x := Meteor(400.0, 50.0, Small);
    var none := Seqs.NoneSet(3);
    assert none == [false, false, false];
    assert Collision.Overlaps(b0, m) && !Collision.Overlaps(b1, m) && !Collision.Overlaps(b1, x);
    assert Collision.FirstFree(b0, [m, x, m], none, 0) == Wrappers.Some(0);
    assert Collision.FirstFree(b1, [m, x, m], [true, false, false], 0) == Wrappers.None;
    assert [b0, b1][1..] == [b1] && [b1][1..] == [];
    assert none[0 := true] == [true, false, false];
    assert Collision.Scan([], [m, x, m], [true, false, false])
        == Collision.Matching([], [true, false, false], 0);
    assert Collision.Scan([b1], [m, x, m], [true, false, false])
        == Collision.Matching([Wrappers.None], [true, false, false], 0);
  }

}

=== FILE: state.dfy ===
/**
 The whole game state as one immutable record, replacing the module-level
 variables of script.js, and the reset performed when a game starts.
 */
module State {
  import opened Entities
  import Shield

  datatype GameState = GameState(
    score: int,
    coins: int,
    meteors: seq<Meteor>,
    bullets: seq<Bullet>,
    speedUpgradeCost: int,
    shieldUpgradeCost: int,
    bulletSpeed: real,
    shield: Shield.ShieldState,
    player: Player)

  const InitialSpeedCost := 100
  const InitialShieldCost := 500
  const InitialBulletSpeed: real := 5.0

  /** The ship: 50 x 30, horizontally centred, 50 units above the bottom edge. */
  const Ship := Player(CanvasWidth / 2.0 - 25.0, CanvasHeight - 50.0, 50.0, 30.0)

  /** The state when the page has loaded, before any game starts. */
  const Loaded := GameState(0, 0, [], [], InitialSpeedCost, InitialShieldCost,
                            InitialBulletSpeed, Shield.Off, Ship)

  /** The ship lies horizontally inside the play area. */
  predicate ShipInBounds(p: Player)
  {
    0.0 <= p.x && p.x + p.width <= CanvasWidth
  }

  /**
   What holds between events: no debt, costs and bullet speed never below
   their starting values, a consistent shield timer, the ship on screen, and
   both pools inside the play area.
   */
  predicate Valid(g: GameState)
  {
    && g.score >= 0
    && g.coins >= 0
    && g.speedUpgradeCost >= InitialSpeedCost
    && g.shieldUpgradeCost >= InitialShieldCost
    && g.bulletSpeed >= InitialBulletSpeed
    && Shield.Valid(g.shield)
    && ShipInBounds(g.player)
    && 0.0 < g.player.y
    && (forall m :: m in g.meteors ==> 0.0 <= m.y < CanvasHeight)
    && (forall b :: b in g.bullets ==> b.y > 0.0)
  }

  /**
   Starting a game clears score, coins, both pools, bullet speed and the
   shield. The upgrade costs and the ship are left as they were.
   */
  function StartGame(g: GameState): (r: GameState)
    ensures r.score == 0 && r.coins == 0 && r.meteors == [] && r.bullets == []
    ensures r.bulletSpeed == InitialBulletSpeed && r.shield == Shield.Off
    ensures r.speedUpgradeCost == g.speedUpgradeCost && r.shieldUpgradeCost == g.shieldUpgradeCost
    ensures r.player == g.player
    ensures Valid(g) ==> Valid(r)
  {
    g.(score := 0, coins := 0, bullets := [], meteors := [],
       bulletSpeed := InitialBulletSpeed, shield := Shield.Off)
  }

  lemma LoadedIsValid()
    ensures Valid(Loaded)
  {
  }
}

=== FILE: wrappers.dfy ===
/** The result of a search that may find nothing, as the collision scan's meteor search. */
module Wrappers {

  /** `Some(v)` when a value was found, `None` otherwise. */
  datatype Option<+T> = None | Some(value: T)
}
